=== FILE: README.md ===
# dem2ticks in Dafny

A verified model of the core of `dem2ticks.py`. The program turns a parsed
Counter-Strike demo into per-player points of view:

- For every player on the roster, it finds the tick ranges during which the
  player was alive. A range is clipped at each round end and closed one tick
  before a death. Absurdly long ranges are dropped.
- For each range, it builds one frame per tick. A frame pairs the player's
  control inputs (movement mask, buttons, jump, crouch, mouse deltas) with the
  player's state (health, team, weapon, round, round time, armour, money,
  name).

The model has four modules:

- `Telemetry` (`telemetry.dfy`) holds the data the parser would return.
  - `Demo` bundles it:
    - the liveliness projection, as (tick, steam id, alive) rows in tick order;
    - the round-end ticks;
    - the roster;
    - the per-(player, tick) field projection, as a partial map. A missing key
      is an empty query result.
  - `Option` and `Result` carry optional values and errors.
- `Frames` (`frames.dfy`) holds the two frame decoders as pure record maps,
  plus the player frame that pairs them. A missing row is the `NotFound`
  error the decoders raise.
- `AliveRanges` (`alive_ranges.dfy`) specifies the alive-range pass.
  - The pass is a state machine:
    - `Step` is one iteration;
    - `RunFrom` folds it over the samples;
    - `Close` handles the range still open after the loop;
    - `KeepShort` is the length filter.
  - `GetPlayerAliveRanges` is the imperative loop with the source's two
    cursors, proved equal to that specification.
  - Lemmas state what the pass guarantees: cursor movement, death closure,
    boundary clipping, the trailing range, the filter, and the shape of the
    ranges when every tick is sampled.
- `Assembly` (`assembly.dfy`) holds the three assembling classes.
  - `PlayerRoundFrames`, `PlayerPOVs` and `DemoPOVs` keep their fields and
    fill them in loops.
  - Each loop is proved against a specification function:
    - `BuildFrames`: the frames of one range;
    - `PovError`: the error that aborts one player;
    - `LeadingCount`: how far a build that stops at its first failure gets.
  - The dictionary key `str(steamid)` is the decimal rendering `PlayerKey`.
    It is proved injective, so the collection holds one entry per distinct
    player.

A Python exception becomes a returned error value. When a step raises, the
model returns the error at the same point, and no later step runs.

The frame assembly (`BuildFrames`, `PlayerRoundFrames`, `PovError`,
`PlayerPOVs` and `DemoPOVs`) is built on the corrected action decoder, so it
models the program with an initialiser for `PlayerActionFrame` (see
Findings). As written, every range with `start <= end` fails at its first
tick, with the type error when that tick has a row and the not-found error
otherwise. `BuildFramesAsWritten` and `BuildFramesAsWrittenFails` state this,
so `DemoPOVs` as written fails for any player with such a range.

The model follows the code where other descriptions of the program differ. A
range still open after the pass is closed at the last round end of the whole
match (dem2ticks.py:56). It is not closed at the last round end after the
cursor. A player who is still alive after the final round end therefore gets
a trailing range that ends before it starts. The length filter keeps it,
because its length is negative, and it builds an empty round-frames object.
`InvertedTrailingRangeKept` and `InvertedTrailingExample` state this.

The written pass also lets its round cursor fall behind: one sample moves it
past at most one round end. A player first sampled two or more round ends
into the match can therefore get a range clipped at a round end that lies
before the range's start, when the player is alive before the cursor has
caught up. A player sampled dead on the early ticks can escape it, because
each dead sample past a stale round end moves the cursor on
(`DeadLateJoinerCatchesUp`). `AliveRanges` keeps the written pass as the one
the rest of the model uses, because it is what the program does. Beside it,
`AliveRanges` defines the evidently intended pass, which passes every
round end a tick has gone beyond, and proves the range shape for it without
any condition on when the player first appears (see Findings).

## Model

| member | source | states |
|---|---|---|
| `Frames.TruncateTowardZero` | dem2ticks.py:172 | `int(x)` of a float: for non-negative `x` the result is the largest integer not above `x`; for negative `x` it is the smallest integer not below `x`. |
| `Frames.Bit` | dem2ticks.py:92-113 | `int(flag)` of a boolean: 1 for true, 0 for false; `ActionFrameCharacterised` states each flag's 0/1 value. |
| `Frames.GetPlayerAction` | dem2ticks.py:84-87 | The action decoder fails exactly when the (player, tick) row is missing, and then with `NotFound(steamid, tick)`. |
| `Frames.ActionFrameCharacterised` | dem2ticks.py:89-117 | The action decoder returns `f` if and only if the row exists and `f` follows the derivation rules from it: the mask is [forward, left, back, right] as 0/1; walk, use, inspect, attack, right-click and reload are 0/1 copies of their flags; jump is 1 iff old-jump-pressed or in-duck-jump; crouch is 1 iff in-crouch, ducked or ducking; team, mouse deltas and weapon are copied; the frame carries the requested tick. |
| `Frames.GetPlayerActionAsWritten` | dem2ticks.py:64-117 | The decoder as written never succeeds: a missing row raises the not-found error, and any other row raises the type error of calling a class without an initialiser with keyword arguments. |
| `Frames.AsWrittenRejectsEveryRow` | dem2ticks.py:102-117 | Every row the intended decoder turns into a frame makes the decoder as written raise the type error. |
| `Frames.NewPlayerFrameAsWritten` | dem2ticks.py:180-184 | A player frame built on the decoder as written never succeeds: a row that exists always gives the type error, and a missing row gives the not-found error. |
| `Frames.GetPlayerInfo` | dem2ticks.py:156-159 | The info decoder fails exactly when the (player, tick) row is missing, and then with `NotFound(steamid, tick)`. |
| `Frames.InfoFrameCharacterised` | dem2ticks.py:123-177 | The info decoder returns `f` if and only if the row exists and `f` follows the derivation rules: the round time is game time minus round start time, truncated toward zero; health, team, weapon, rounds played, armour, money, name and steam id are copied; the picture path is unset; the frame carries the requested tick. |
| `Frames.NewPlayerFrame` | dem2ticks.py:180-184 | A player frame fails exactly when the row is missing, with the info decoder's `NotFound` error. On success the frame, its info frame and its action frame all carry the requested tick. |
| `Frames.PlayerFrameDerived` | dem2ticks.py:180-184 | A decoded player frame holds the info frame and the action frame derived from the same row. |
| `AliveRanges.PlayerSamples` | dem2ticks.py:33 | The mask keeps at most one sample per liveliness row. |
| `AliveRanges.PlayerSamplesMembers` | dem2ticks.py:33 | The player's samples are exactly the (tick, alive) pairs of the liveliness rows that carry the player's steam id. |
| `AliveRanges.PlayerSamplesAppend` | dem2ticks.py:33 | The mask keeps the order of the rows, duplicates included: selecting from a concatenation is concatenating the selections. |
| `AliveRanges.PlayerSamplesSingle` | dem2ticks.py:33 | One row yields its own (tick, alive) sample when it carries the player's steam id, and nothing otherwise. |
| `AliveRanges.NextMarker` | dem2ticks.py:41 | The next round end is one of the round ends and lies after the cursor; there is none exactly when every round end is at or before the cursor. |
| `AliveRanges.NextMarkerIsLeast` | dem2ticks.py:41 | With increasing round ends, the next round end after the cursor is the earliest round end after it. |
| `AliveRanges.CrossBoundary` | dem2ticks.py:41-46 | The round-end check of one iteration, as written. When the tick has passed the next round end, an open range is closed at that round end and the cursor moves onto it; otherwise nothing changes. `StepCursor` and `ClipStep` state its effect. |
| `AliveRanges.Liveliness` | dem2ticks.py:48-52 | The liveliness update of one iteration: an alive sample opens a range when none is open, and a dead sample closes the open one at the tick before it. `OpenStep` and `DeathStep` state its effect. |
| `AliveRanges.Step` | dem2ticks.py:41-52 | One loop iteration: the round-end check, then the liveliness update. |
| `AliveRanges.RunFrom` | dem2ticks.py:39-52 | The loop over the samples in order, from a given cursor state. `RunFromAppend` states that it composes. |
| `AliveRanges.Close` | dem2ticks.py:55-57 | The trailing close after the loop. `TrailingRange` states it. |
| `AliveRanges.KeepShort` | dem2ticks.py:60-61 | The final comprehension. `KeepShortMembers`, `KeepShortAppend` and `KeepShortBounded` state what it keeps. |
| `AliveRanges.AliveRangesOf` | dem2ticks.py:35-61 | The whole extraction over one player's samples: the loop, the trailing close, then the filter. |
| `AliveRanges.AliveRangesSpec` | dem2ticks.py:20-61 | The extraction for one steam id of a demo: the mask, then `AliveRangesOf`. `GetPlayerAliveRanges` is proved equal to it. |
| `AliveRanges.GetPlayerAliveRanges` | dem2ticks.py:20-61 | The imperative pass returns exactly the specified ranges: the state machine run over the player's samples, the trailing range closed, then the long ranges dropped. Every range it returns is shorter than 128*(55+60+15+15+45) ticks. |
| `AliveRanges.KeepShortMembers` | dem2ticks.py:60-61 | A range survives the filter if and only if it was in the input and `end - start < MAX_LEN`; the filter never lengthens the list. |
| `AliveRanges.KeepShortBounded` | dem2ticks.py:60-61 | Every range after the filter has `end - start < MAX_LEN`. |
| `AliveRanges.KeepShortAppend` | dem2ticks.py:61 | The filter keeps order: filtering a concatenation is concatenating the filtered parts. |
| `AliveRanges.KeepShortAllShort` | dem2ticks.py:61 | A list whose ranges are all short passes the filter unchanged. |
| `AliveRanges.KeepShortKeepsInverted` | dem2ticks.py:61 | A range ending before its start is always kept, at its place. |
| `AliveRanges.RunFromAppend` | dem2ticks.py:39-52 | Running the pass over a concatenation equals running it over the first part, then continuing over the second. |
| `AliveRanges.StepCursor` | dem2ticks.py:41-46 | One sample never moves the round cursor back, and it moves it at most onto the next round end after it. |
| `AliveRanges.RunCursorMonotone` | dem2ticks.py:39-46 | Over any run of samples the round cursor never decreases. |
| `AliveRanges.DeadRunQuiet` | dem2ticks.py:39-52 | With no range open, dead samples open nothing and close nothing, whatever round ends they pass. |
| `AliveRanges.NeverAliveNoRanges` | dem2ticks.py:35-57 | A player who is never alive leaves no range open after the loop. The trailing close is never reached, and the result is empty. |
| `AliveRanges.AliveRunHolds` | dem2ticks.py:41-49 | An open range stays open and unchanged over alive samples that do not pass the next round end. |
| `AliveRanges.TrailingRange` | dem2ticks.py:55-57 | A range still open after the loop is appended last. It ends at the last round end of the match, or at the player's last sampled tick when there are no round ends. |
| `AliveRanges.InvertedTrailingRangeKept` | dem2ticks.py:55-61 | When that last round end lies before the open range's start, the trailing range ends before it starts, and the filter keeps it. |
| `AliveRanges.InvertedTrailingExample` | dem2ticks.py:55-61 | Alive at tick 1000 with one round end at 500 gives the single range (1000, 500). |
| `AliveRanges.OpenStep` | dem2ticks.py:48-49 | From any state with no range open, an alive sample that has not passed the next round end opens a range at its own tick, and nothing else changes. |
| `AliveRanges.AliveSpanOpen` | dem2ticks.py:39-49 | From any state with no range open, alive samples on consecutive ticks `s..e`, none past the next round end, open one range at `s`. They close nothing and leave the cursor where it was. |
| `AliveRanges.DeathStep` | dem2ticks.py:50-52 | From any state with a range open, a dead sample at `t` that has not passed the next round end closes that range at `t - 1`, appended after the ranges closed before. It keeps the cursor. |
| `AliveRanges.DeathClosesBeforeDeathTick` | dem2ticks.py:48-52 | Death closure in any round. From a state with no range open, alive on `s..t-1` and dead at `t` and after, with the next round end not before `t`: the run appends exactly the range (s, t - 1) and leaves nothing open. |
| `AliveRanges.SingleLifeRange` | dem2ticks.py:35-61 | A player dead through any prefix, alive on `s..t-1` and dead from `t` on, with no round end in `1..t-1` and `t - 1 - s` under `MAX_LEN`: the result is exactly `[(s, t - 1)]`. |
| `AliveRanges.DeathClosureExample` | dem2ticks.py:48-52 | Dead on 50..99, alive on 100..250 and dead on 251..400, with a round end at 300, gives `[(100, 250)]`. |
| `AliveRanges.ClipStep` | dem2ticks.py:41-52 | From any state, a sample past the next round end `m` moves the cursor onto `m`. If a range is open, it is closed at `m` itself, after the ranges closed before. Then the sample opens a new range at its own tick when it is alive, and leaves none open when it is dead. |
| `AliveRanges.BoundaryClipsAtRoundEnd` | dem2ticks.py:41-49 | Boundary clipping in any round. From a state with no range open, alive on `s..e` with the next round end `m` in between and none after it before `e`: the run appends (s, m), moves the cursor onto `m` and holds a range open from `m + 1`. |
| `AliveRanges.BoundaryClipExample` | dem2ticks.py:41-61 | Alive on 100..500 with round ends 300 and 600 gives `[(100, 300), (301, 600)]`. |
| `AliveRanges.CrossBoundaryKeepsInv` | dem2ticks.py:41-46 | With consecutive ticks, the round-end check at the next tick passes at most the round end at the previous tick. A range it clips ends there, and the range invariant is kept. |
| `AliveRanges.LivelinessKeepsInv` | dem2ticks.py:48-52 | Opening a range, closing one at the tick before a death, or doing neither keeps the range invariant. |
| `AliveRanges.StepKeepsInv` | dem2ticks.py:39-52 | One iteration over the next consecutive tick keeps the range invariant. |
| `AliveRanges.RunKeepsInv` | dem2ticks.py:39-52 | Over one sample per tick from a non-negative tick, with increasing round ends and at most one positive round end before the first sample, every non-empty prefix of the run satisfies the range invariant at its last tick. |
| `AliveRanges.KeepShortKeepsShape` | dem2ticks.py:61 | The filter keeps three properties: each range starts no later than it ends, ranges ascend without overlap, and no round end lies strictly inside a range. |
| `AliveRanges.RangesWellShaped` | dem2ticks.py:39-61 | Assume one sample per tick from a non-negative tick, increasing round ends, and at most one positive round end before the first sample. Then the ranges closed inside the loop have three properties, before and after the filter: each starts no later than it ends, they ascend without overlap, and no round end lies strictly inside one. When no range is left open, that filtered list is the whole result. |
| `AliveRanges.OnlyFirstRoundEndBefore` | dem2ticks.py:41 | With increasing round ends and at most one positive round end before a tick, every positive round end above another one is at or after that tick. |
| `AliveRanges.FirstStepKeepsInv` | dem2ticks.py:39-52 | The first iteration, for a player first sampled after at most one positive round end, passes that round end if any and establishes the range invariant at the first tick. |
| `AliveRanges.LateJoinerClipsAtStaleRoundEnd` | dem2ticks.py:41-46 | A player first sampled at 100 and alive at 100 and 101, with round ends 10, 20 and 300, gets the loop range (100, 20), which ends before it starts. The result is `[(100, 20), (101, 300)]`. |
| `AliveRanges.DeadLateJoinerCatchesUp` | dem2ticks.py:39-57 | With the same round ends, a player dead at 100 and 101 and alive at 102 and 103 lets the cursor catch up to 20 before any range opens, and gets the one range (102, 300). |
| `AliveRanges.LatestMarker` | dem2ticks.py:41 | No round end lies after the returned tick. It bounds how far the intended round-end check can move the cursor. |
| `AliveRanges.CrossAllBoundaries` | dem2ticks.py:41-46 | The round-end check as evidently intended: it passes every round end the tick has gone beyond and clips an open range at the first of them. |
| `AliveRanges.CrossAllFromClosed` | dem2ticks.py:41-46 | With no range open and increasing round ends, the intended check closes nothing. It moves the cursor forward, to a point before the tick unless it stays put, and passes every round end between the old cursor and the tick. |
| `AliveRanges.StepIntended` | dem2ticks.py:41-52 | One iteration of the intended pass: the intended round-end check, then the same liveliness update. |
| `AliveRanges.RunIntendedFrom` | dem2ticks.py:39-52 | The intended loop over the samples in order. |
| `AliveRanges.AliveRangesIntended` | dem2ticks.py:35-61 | The intended extraction: the intended loop, then the same trailing close and filter. |
| `AliveRanges.IntendedAgreesOnNextTick` | dem2ticks.py:41-46 | Once the range invariant holds at `last`, an iteration of the intended pass at `last + 1` equals one of the written pass. |
| `AliveRanges.IntendedFirstStep` | dem2ticks.py:39-52 | The first iteration of the intended pass, at any non-negative tick, establishes the range invariant there, however many round ends came before. |
| `AliveRanges.IntendedStepKeepsInv` | dem2ticks.py:39-52 | One intended iteration over the next consecutive tick keeps the range invariant. |
| `AliveRanges.RunIntendedKeepsInv` | dem2ticks.py:39-52 | Over one sample per tick from a non-negative tick, with increasing round ends, every non-empty prefix of the intended run satisfies the range invariant at its last tick. There is no condition on when the player is first sampled. |
| `AliveRanges.IntendedRangesWellShaped` | dem2ticks.py:39-61 | With one sample per tick from a non-negative tick and increasing round ends, whenever the player is first sampled: the ranges the intended loop closes are proper, ascend without overlap, and contain no round end strictly inside, before and after the filter. |
| `AliveRanges.LateJoinerIntended` | dem2ticks.py:41-61 | The same late joiner under the intended pass closes nothing inside the loop and gets the one range (100, 300). |
| `Assembly.BuildFramesSpec` | dem2ticks.py:195-198 | Building the frames of `lo..hi` succeeds if and only if every tick has a row. It then gives `max(0, hi - lo + 1)` frames, and frame `i` is the decoded frame of tick `lo + i`. Otherwise the error names the player and the earliest tick of the range without a row. |
| `Assembly.BuildFrames` | dem2ticks.py:195-198 | The frames of the ticks `lo..hi` in order, or the error of the first tick without a row. `BuildFramesSpec` states what it yields. |
| `Assembly.BuildFramesFailureExtends` | dem2ticks.py:197-198 | A failure inside `lo..k` is also the failure of the build over any longer range from `lo`. |
| `Assembly.BuildFramesAsWritten` | dem2ticks.py:180-198 | The frames of `range(start, end + 1)` built on the action decoder as written, stopping at the first tick that fails. `BuildFramesAsWrittenFails` states its result. |
| `Assembly.BuildFramesAsWrittenFails` | dem2ticks.py:180-198 | Built on the action decoder as written, an empty range gives no frames, and every range with `lo <= hi` fails at tick `lo`: with the type error when that tick has a row, and the not-found error otherwise. |
| `Assembly.AsWrittenBuildDiverges` | dem2ticks.py:180-198 | Where every tick of a non-empty range has a row, the corrected build succeeds and the build as written fails with the type error. |
| `Assembly.PlayerRoundFrames.constructor` | dem2ticks.py:188-192 | A new round-frames object records its range and player, and holds no frames. |
| `Assembly.PlayerRoundFrames.BuildPlayerFrames` | dem2ticks.py:195-198 | The frame loop fails exactly when the range's build fails, and then with the same error. On success the object holds the built frames. On failure it holds the frames of the ticks before the failing tick. |
| `Assembly.PlayerRoundFrames.Build` | dem2ticks.py:188-193 | Constructing a round-frames object yields a fresh object for the range. Its error is set exactly when the range's build fails, and then it is that failure's error. Otherwise the object holds the built frames. |
| `Assembly.LeadingCountSpec` | dem2ticks.py:211-212 | Every element before the leading count succeeds, and the element at the count, if any, fails. |
| `Assembly.LeadingCountAt` | dem2ticks.py:211-212 | Conversely, an index with only successes before it and a failure (or the end) at it is the leading count. |
| `Assembly.PovError` | dem2ticks.py:210-212 | The error that aborts a player's point of view: that of the first alive range whose frames do not build, or none. `PovErrorSpec` states it. |
| `Assembly.PovErrorSpec` | dem2ticks.py:210-212 | A player's point of view fails if and only if some alive range cannot be built. The error is then that of the earliest such range. |
| `Assembly.PlayerPOVs.constructor` | dem2ticks.py:202-205 | A new point of view records its player and holds no round frames. |
| `Assembly.PlayerPOVs.RoundsMatchBuild` | dem2ticks.py:211-212 | Round frames that match the first `n` ranges mean those ranges build. |
| `Assembly.PlayerPOVs.ParseRoundFrames` | dem2ticks.py:208-212 | The range loop holds one built round-frames object per range, in range order, up to the first range that fails. It returns exactly the player's `PovError`. It is fully built exactly when there is no error. |
| `Assembly.PlayerPOVs.Build` | dem2ticks.py:202-206 | Constructing a point of view yields a fresh object for the player. Its error is `PovError`, and it holds every range's round frames exactly when there is no error. |
| `Assembly.PlayerPOVs.BuiltStable` | dem2ticks.py:16-17 | Building other objects does not disturb a fully built point of view. |
| `Assembly.BuiltHasNoError` | dem2ticks.py:208-212 | A fully built point of view belongs to a player whose `PovError` is none. |
| `Assembly.PlayerKey` | dem2ticks.py:17 | `str(steamid)`: an optional minus sign, then the decimal digits. `PlayerKeyInjective` states that distinct ids get distinct keys. |
| `Assembly.PlayerKeyInjective` | dem2ticks.py:17 | Two steam ids get the same `str(steamid)` key if and only if they are equal. |
| `Assembly.RosterKeysSnoc` | dem2ticks.py:16-17 | Taking one more roster entry adds exactly that entry's key. |
| `Assembly.DemoPOVs.constructor` | dem2ticks.py:10 | A new collection holds no players. |
| `Assembly.DemoPOVs.AddPlayer` | dem2ticks.py:17 | Adding a player returns that player's `PovError`. On failure the collection is unchanged. On success exactly the player's key is added, or its entry replaced, and every other key keeps the same object. Every entry stays the fully built point of view of the player whose key it is stored under. |
| `Assembly.DemoPOVs.InitPlayers` | dem2ticks.py:13-17 | The roster loop stops at index `stop`. It fails exactly when `stop` is inside the roster, with that player's `PovError`. The keys are exactly those of the roster entries before `stop`, and each entry is the fully built point of view of its own player. |
| `Assembly.StopsAtFirstFailure` | dem2ticks.py:13-17 | A collection in that final state stopped at the first roster entry whose point of view fails, or at the roster's end if none fails. |

## Left out

- The demo parser library and pandas are not modelled (dem2ticks.py:9, 15, 29-30, 84, 156). Their query results are one `Demo` value passed as a parameter: liveliness rows in tick order, round-end ticks in query order, the roster, and a partial (player, tick) row map. The unused `game_time` column of the liveliness query is dropped.
- `DemoPOVs.__init__` does not open a file or create a parser (dem2ticks.py:7-11). The model's constructor starts an empty collection, and `InitPlayers` is the call it makes.
- Each Python constructor that builds its contents becomes a plain constructor followed by a build method, or a static `Build` that does both. A Dafny constructor cannot return the error the Python one raises.
- The `demo_parser` fields kept by `PlayerPOVs` and `DemoPOVs` are not modelled. The `Demo` value is passed to each build instead.
- Exceptions are returned as `Option`/`Result` error values. The message text of the `ValueError` is not modelled. Its (steam id, tick) is kept.
- Floating point is not modelled. Game time and round start time are Dafny `real`s, so their subtraction is exact rather than IEEE rounding. `TruncateTowardZero` is the `int(...)` conversion.
- Passthrough values (team, mouse deltas, weapon, health, rounds, armour, money, name) are copied as opaque `int`/`string` fields. Their numpy types are not modelled.
- `pic_path` rendering and the `__main__` block are not modelled (dem2ticks.py:215-218). The picture path is always unset.
- The alive-range shape lemmas (`AliveRanges.RangesWellShaped` and `AliveRanges.RunKeepsInv`) assume one sample per tick, strictly increasing round ends, non-negative ticks, and at most one positive round end before the player's first sample. Without the last assumption the shape can fail: the written pass moves its cursor at most one round end per sample, so a player first sampled two or more round ends into the match can get an inverted range when alive before the cursor catches up (see Findings). A player dead on the early samples can escape it: each dead sample past a stale round end moves the cursor on (`AliveRanges.DeadLateJoinerCatchesUp`). The code promises nothing about the shape of ranges when samples skip ticks.
- The model takes the pandas index of the liveliness and round-end tables to be the tick, as the code assumes when it reads ticks from `iterrows()` and `.index` (dem2ticks.py:39, 41, 56). Each liveliness row carries its tick as a field, and the round ends are a list of ticks.
- The frame assembly models the program with the action decoder corrected. `BuildFrames`, `PlayerRoundFrames`, `PovError`, `PlayerPOVs` and `DemoPOVs.InitPlayers` rest on the corrected `NewPlayerFrame`. As written, each range with `start <= end` fails at its first tick (`Assembly.BuildFramesAsWrittenFails`). The classes are not repeated over the as-written build, because it never produces a frame.
- No `start <= end` check is added to the ranges, because the code has none.
- Assembly.DemoPOVs.InitPlayers: the index `stop` at which the roster loop ended is a ghost out-parameter. The Python method exposes only the dictionary and the exception.

## Findings

| source | as written | input that shows it | evidently intended | confidence | as-written member | corrected member |
|---|---|---|---|---|---|---|
| dem2ticks.py:64-117 | `PlayerActionFrame` declares no `__init__`, yet line 102 constructs it with fourteen keyword arguments. The inherited default initialiser accepts none, so the call raises a `TypeError`. | Any (steam id, tick) whose projection is non-empty (`Frames.AsWrittenRejectsEveryRow`). The type error then aborts every player frame built on it (`Frames.NewPlayerFrameAsWritten`) and every non-empty range's frames (`Assembly.BuildFramesAsWrittenFails`). | An initialiser that stores the fourteen named fields, as the call spells them out. | high, not executed | `Frames.GetPlayerActionAsWritten` | `Frames.GetPlayerAction` (contents proved by `Frames.ActionFrameCharacterised`) |
| dem2ticks.py:41-46 | The round-end check is an `if`, so one sample moves `last_round_end_tick` past at most one round end. A player whose first sample comes two or more round ends into the match, alive, lags behind: the next sample can clip the range just opened at a round end before its start. | Samples (100, alive) and (101, alive) with round ends 10, 20 and 300 give the loop range (100, 20) and the result `[(100, 20), (101, 300)]` (`AliveRanges.LateJoinerClipsAtStaleRoundEnd`). | Pass every round end the tick has gone beyond, a `while` in place of the `if`. The ranges closed in the loop are then proper, ascending and within one round, however late the player appears (`AliveRanges.IntendedRangesWellShaped`). | medium, not executed | `AliveRanges.LateJoinerClipsAtStaleRoundEnd` | `AliveRanges.IntendedRangesWellShaped` |

=== FILE: alive_ranges.dfy ===
/**
  Alive-range extraction: from one player's tick-ordered liveliness samples
  and the round-end ticks, the (start, end) tick ranges during which the
  player was alive.

  The single pass is specified as a state machine (`Step`, folded by
  `RunFrom`), closed off by `Close` and filtered by `KeepShort`;
  `GetPlayerAliveRanges` is the imperative pass, proved equal to that
  specification, and the lemmas state what the specification guarantees.
 */
module AliveRanges {
  import opened Telemetry

  /** Longest range kept: 128 ticks per second times the sum of the round timers. */
  const MAX_LEN: int := 128 * (55 + 60 + 15 + 15 + 45)

  /** One liveliness sample of the target player. */
  datatype Sample = Sample(tick: int, alive: bool)

  /** An alive range, both ends inclusive. */
  datatype Range = Range(start: int, end: int)

  /**
    The pass's cursors: the tick where the open range started (if any), the
    last round end passed so far, and the ranges closed so far.
   */
  datatype ScanState = ScanState(start: Option<int>, cursor: int, ranges: seq<Range>)

  const Init: ScanState := ScanState(None, 0, [])

  /** The rows of the liveliness projection that belong to `steamid`, order kept. */
  function PlayerSamples(rows: seq<LivenessRow>, steamid: PlayerId): (r: seq<Sample>)
    ensures |r| <= |rows|
  {
    if rows == [] then []
    else
      var rest := PlayerSamples(rows[1..], steamid);
      if rows[0].steamid == steamid then [Sample(rows[0].tick, rows[0].isAlive)] + rest else rest
  }

  /** The samples are exactly the (tick, alive) pairs of the player's rows. */
  lemma {:induction false} PlayerSamplesMembers(rows: seq<LivenessRow>, steamid: PlayerId)
    ensures forall s :: s in PlayerSamples(rows, steamid) <==>
      exists row :: row in rows && row.steamid == steamid && s == Sample(row.tick, row.isAlive)
  {
    if rows != [] {
      PlayerSamplesMembers(rows[1..], steamid);
      assert forall row :: row in rows <==> row == rows[0] || row in rows[1..];
    }
  }

  /** The projection keeps the order of the rows: it distributes over concatenation. */
  lemma {:induction false} PlayerSamplesAppend(a: seq<LivenessRow>, b: seq<LivenessRow>, steamid: PlayerId)
    ensures PlayerSamples(a + b, steamid) == PlayerSamples(a, steamid) + PlayerSamples(b, steamid)
  {
    if a == [] {
      assert a + b == b;
    } else {
      var c := a + b;
      assert c[0] == a[0] && c[1..] == a[1..] + b;
      var rest := PlayerSamples(a[1..], steamid);
      PlayerSamplesAppend(a[1..], b, steamid);
      if a[0].steamid == steamid {
        var x := Sample(a[0].tick, a[0].isAlive);
        assert PlayerSamples(c, steamid) == [x] + (rest + PlayerSamples(b, steamid));
        assert PlayerSamples(a, steamid) == [x] + rest;
      } else {
        assert PlayerSamples(c, steamid) == rest + PlayerSamples(b, steamid);
      }
    }
  }

  /** A single row contributes its sample exactly when it belongs to the player. */
  lemma PlayerSamplesSingle(row: LivenessRow, steamid: PlayerId)
    ensures PlayerSamples([row], steamid) ==
      if row.steamid == steamid then [Sample(row.tick, row.isAlive)] else []
  {
    assert [row][1..] == [];
  }

  /**
    The first round end, in the order the event query lists them, that lies
    after `cursor`.
   */
  function NextMarker(markers: seq<int>, cursor: int): (r: Option<int>)
    ensures r.Some? ==> r.value in markers && r.value > cursor
    ensures r.None? <==> forall m :: m in markers ==> m <= cursor
  {
    if markers == [] then None
    else if markers[0] > cursor then Some(markers[0])
    else
      assert forall m :: m in markers <==> m == markers[0] || m in markers[1..];
      NextMarker(markers[1..], cursor)
  }

  /**
    Round-boundary check at a sample with tick `tick`: when the tick has
    passed the next round end, an open range is clipped at that round end
    and the cursor moves onto it.
   */
  function CrossBoundary(st: ScanState, tick: int, markers: seq<int>): ScanState
  {
    var next := NextMarker(markers, st.cursor);
    if next.Some? && tick > next.value then
      ScanState(None, next.value,
                if st.start.Some? then st.ranges + [Range(st.start.value, next.value)] else st.ranges)
    else st
  }

  /**
    The liveliness part of an iteration: an alive sample opens a range when
    none is open, and a dead sample closes the open one at the tick before it.
   */
  function Liveliness(st: ScanState, s: Sample): ScanState
  {
    if s.alive && st.start.None? then st.(start := Some(s.tick))
    else if !s.alive && st.start.Some? then
      ScanState(None, st.cursor, st.ranges + [Range(st.start.value, s.tick - 1)])
    else st
  }

  /** One iteration of the pass: the boundary check, then the liveliness update. */
  function Step(st: ScanState, s: Sample, markers: seq<int>): ScanState
  {
    Liveliness(CrossBoundary(st, s.tick, markers), s)
  }

  /** The state after running the pass over `samples` from `st`. */
  function RunFrom(st: ScanState, samples: seq<Sample>, markers: seq<int>): ScanState
  {
    if samples == [] then st
    else Step(RunFrom(st, samples[..|samples| - 1], markers), samples[|samples| - 1], markers)
  }

  function Run(samples: seq<Sample>, markers: seq<int>): ScanState
  {
    RunFrom(Init, samples, markers)
  }

  /**
    After the pass, a range still open is closed at the last round end of the
    whole match, or at the player's last sampled tick when there are none.
   */
  function Close(st: ScanState, samples: seq<Sample>, markers: seq<int>): seq<Range>
  {
    if st.start.Some? && samples != [] then
      var lastEnd := if markers != [] then markers[|markers| - 1] else samples[|samples| - 1].tick;
      st.ranges + [Range(st.start.value, lastEnd)]
    else st.ranges
  }

  predicate IsShort(r: Range)
  {
    r.end - r.start < MAX_LEN
  }

  /** The final comprehension: keep the ranges shorter than `MAX_LEN`, in order. */
  function KeepShort(rs: seq<Range>): seq<Range>
  {
    if rs == [] then []
    else KeepShort(rs[..|rs| - 1]) + (if IsShort(rs[|rs| - 1]) then [rs[|rs| - 1]] else [])
  }

  /** The ranges before the length filter. */
  function PreFilter(samples: seq<Sample>, markers: seq<int>): seq<Range>
  {
    Close(Run(samples, markers), samples, markers)
  }

  /** The specification of the whole extraction for one player's samples. */
  function AliveRangesOf(samples: seq<Sample>, markers: seq<int>): seq<Range>
  {
    KeepShort(PreFilter(samples, markers))
  }

  /** The specification of the extraction for `steamid` in `demo`. */
  function AliveRangesSpec(demo: Demo, steamid: PlayerId): seq<Range>
  {
    AliveRangesOf(PlayerSamples(demo.liveness, steamid), demo.roundEnds)
  }

  /** The single pass over the player's samples with its two cursors. */
  method GetPlayerAliveRanges(demo: Demo, steamid: PlayerId) returns (ranges: seq<Range>)
    ensures ranges == AliveRangesSpec(demo, steamid)
    ensures forall r :: r in ranges ==> r.end - r.start < MAX_LEN
  {
    var samples := PlayerSamples(demo.liveness, steamid);
    var markers := demo.roundEnds;

    var aliveRanges: seq<Range> := [];
    var startTick: Option<int> := None;
    var lastRoundEndTick := 0;

    var i := 0;
    while i < |samples|
      invariant 0 <= i <= |samples|
      invariant ScanState(startTick, lastRoundEndTick, aliveRanges) == RunFrom(Init, samples[..i], markers)
    {
      var s := samples[i];
      ghost var before := ScanState(startTick, lastRoundEndTick, aliveRanges);
      var next := NextMarker(markers, lastRoundEndTick);
      if next.Some? && s.tick > next.value {
        if startTick.Some? {
          aliveRanges := aliveRanges + [Range(startTick.value, next.value)];
          startTick := None;
        }
        lastRoundEndTick := next.value;
      }
      assert ScanState(startTick, lastRoundEndTick, aliveRanges) == CrossBoundary(before, s.tick, markers);

      if s.alive && startTick.None? {
        startTick := Some(s.tick);
      } else if !s.alive && startTick.Some? {
        aliveRanges := aliveRanges + [Range(startTick.value, s.tick - 1)];
        startTick := None;
      }
      assert ScanState(startTick, lastRoundEndTick, aliveRanges) == Step(before, s, markers);
      assert samples[..i + 1][..i] == samples[..i];
      i := i + 1;
    }
    assert samples[..i] == samples;

    if startTick.Some? {
      var lastRoundEnd := if markers != [] then markers[|markers| - 1] else samples[|samples| - 1].tick;
      aliveRanges := aliveRanges + [Range(startTick.value, lastRoundEnd)];
    }

    ranges := KeepShort(aliveRanges);
    KeepShortBounded(aliveRanges);
  }

  // ---------------------------------------------------------------------
  // The length filter

  /** A range survives the filter exactly when it is one of the input ranges and is short. */
  lemma {:induction false} KeepShortMembers(rs: seq<Range>)
    ensures forall r :: r in KeepShort(rs) <==> r in rs && IsShort(r)
    ensures |KeepShort(rs)| <= |rs|
  {
    if rs != [] {
      KeepShortMembers(rs[..|rs| - 1]);
      assert rs == rs[..|rs| - 1] + [rs[|rs| - 1]];
    }
  }

  lemma KeepShortBounded(rs: seq<Range>)
    ensures forall r :: r in KeepShort(rs) ==> r.end - r.start < MAX_LEN
  {
    KeepShortMembers(rs);
  }

  /** The filter keeps order: it distributes over concatenation. */
  lemma {:induction false} KeepShortAppend(a: seq<Range>, b: seq<Range>)
    ensures KeepShort(a + b) == KeepShort(a) + KeepShort(b)
  {
    if b == [] {
      assert a + b == a;
    } else {
      KeepShortAppend(a, b[..|b| - 1]);
      assert (a + b)[..|a + b| - 1] == a + b[..|b| - 1];
    }
  }

  /** A list of ranges that are all short passes the filter unchanged. */
  lemma {:induction false} KeepShortAllShort(rs: seq<Range>)
    requires forall r :: r in rs ==> IsShort(r)
    ensures KeepShort(rs) == rs
  {
    if rs != [] {
      KeepShortAllShort(rs[..|rs| - 1]);
      assert rs == rs[..|rs| - 1] + [rs[|rs| - 1]];
    }
  }

  /** A range whose end lies before its start has a negative length and is never dropped. */
  lemma KeepShortKeepsInverted(rs: seq<Range>, r: Range)
    requires r.end < r.start
    ensures KeepShort(rs + [r]) == KeepShort(rs) + [r]
  {
    assert (rs + [r])[..|rs + [r]| - 1] == rs;
  }

  // ---------------------------------------------------------------------
  // Basic facts about the pass

  /** Running over a concatenation is running over each part in turn. */
  lemma {:induction false} RunFromAppend(st: ScanState, a: seq<Sample>, b: seq<Sample>, markers: seq<int>)
    ensures RunFrom(st, a + b, markers) == RunFrom(RunFrom(st, a, markers), b, markers)
  {
    if b == [] {
      assert a + b == a;
    } else {
      RunFromAppend(st, a, b[..|b| - 1], markers);
      assert (a + b)[..|a + b| - 1] == a + b[..|b| - 1];
    }
  }

  /**
    The round cursor never moves back, and one sample moves it at most one
    round end forward: onto the next round end after it.
   */
  lemma StepCursor(st: ScanState, s: Sample, markers: seq<int>)
    ensures var c := Step(st, s, markers).cursor;
      && c >= st.cursor
      && (c == st.cursor || NextMarker(markers, st.cursor) == Some(c))
  {
  }

  lemma {:induction false} RunCursorMonotone(st: ScanState, samples: seq<Sample>, markers: seq<int>)
    ensures RunFrom(st, samples, markers).cursor >= st.cursor
  {
    if samples != [] {
      RunCursorMonotone(st, samples[..|samples| - 1], markers);
      StepCursor(RunFrom(st, samples[..|samples| - 1], markers), samples[|samples| - 1], markers);
    }
  }

  /** With no open range, dead samples never produce a range (whatever round ends they pass). */
  lemma {:induction false} DeadRunQuiet(st: ScanState, samples: seq<Sample>, markers: seq<int>)
    requires st.start.None?
    requires forall k :: 0 <= k < |samples| ==> !samples[k].alive
    ensures RunFrom(st, samples, markers).start.None?
    ensures RunFrom(st, samples, markers).ranges == st.ranges
  {
    if samples != [] {
      DeadRunQuiet(st, samples[..|samples| - 1], markers);
    }
  }

  /**
    If the player is never alive, there are no ranges: nothing is started,
    so nothing is closed after the pass either.
   */
  lemma NeverAliveNoRanges(samples: seq<Sample>, markers: seq<int>)
    requires forall k :: 0 <= k < |samples| ==> !samples[k].alive
    ensures Run(samples, markers).start.None?
    ensures PreFilter(samples, markers) == []
    ensures AliveRangesOf(samples, markers) == []
  {
    DeadRunQuiet(Init, samples, markers);
  }

  /**
    An open range stays open, unchanged, over alive samples that do not pass
    the next round end.
   */
  lemma {:induction false} AliveRunHolds(st: ScanState, samples: seq<Sample>, markers: seq<int>)
    requires st.start.Some?
    requires forall k :: 0 <= k < |samples| ==> samples[k].alive
    requires NextMarker(markers, st.cursor).Some? ==>
      forall k :: 0 <= k < |samples| ==> samples[k].tick <= NextMarker(markers, st.cursor).value
    ensures RunFrom(st, samples, markers) == st
  {
    if samples != [] {
      AliveRunHolds(st, samples[..|samples| - 1], markers);
    }
  }

  /** A still-open range after the pass becomes the last range before filtering. */
  lemma TrailingRange(samples: seq<Sample>, markers: seq<int>)
    requires Run(samples, markers).start.Some?
    ensures samples != []
    ensures var st := Run(samples, markers);
      var lastEnd := if markers != [] then markers[|markers| - 1] else samples[|samples| - 1].tick;
      PreFilter(samples, markers) == st.ranges + [Range(st.start.value, lastEnd)]
  {
  }

  /**
    When the player is alive after the last round end of the match, the
    trailing range ends at that round end, before its own start, and the
    length filter keeps it: the pass does not reject inverted ranges.
   */
  lemma InvertedTrailingRangeKept(samples: seq<Sample>, markers: seq<int>)
    requires Run(samples, markers).start.Some?
    requires markers != [] && markers[|markers| - 1] < Run(samples, markers).start.value
    ensures var st := Run(samples, markers);
      var r := Range(st.start.value, markers[|markers| - 1]);
      && r.end < r.start
      && AliveRangesOf(samples, markers) == KeepShort(st.ranges) + [r]
  {
    TrailingRange(samples, markers);
    var st := Run(samples, markers);
    KeepShortKeepsInverted(st.ranges, Range(st.start.value, markers[|markers| - 1]));
  }

  /** A concrete instance: alive at tick 1000, the only round end at 500, gives (1000, 500). */
  lemma InvertedTrailingExample()
    ensures AliveRangesOf([Sample(1000, true)], [500]) == [Range(1000, 500)]
  {
    assert [Sample(1000, true)][..0] == [];
    assert Run([Sample(1000, true)], [500]) == ScanState(Some(1000), 500, []);
    InvertedTrailingRangeKept([Sample(1000, true)], [500]);
    assert KeepShort([]) == [];
  }

  // ---------------------------------------------------------------------
  // Scenarios over consecutive ticks

  /** Samples for the consecutive ticks `lo..hi`, all with the same liveliness. */
  function Span(lo: int, hi: int, alive: bool): (r: seq<Sample>)
    ensures |r| == if hi < lo then 0 else hi - lo + 1
    ensures forall k :: 0 <= k < |r| ==> r[k] == Sample(lo + k, alive)
    decreases hi - lo + 1
  {
    if hi < lo then [] else Span(lo, hi - 1, alive) + [Sample(hi, alive)]
  }

  lemma SpanSplit(lo: int, mid: int, hi: int, alive: bool)
    requires lo - 1 <= mid <= hi
    ensures Span(lo, hi, alive) == Span(lo, mid, alive) + Span(mid + 1, hi, alive)
  {
    var a, b, c := Span(lo, hi, alive), Span(lo, mid, alive), Span(mid + 1, hi, alive);
    assert |a| == |b| + |c|;
    forall k | 0 <= k < |a| ensures a[k] == (b + c)[k] {
      if k < |b| { } else { assert (b + c)[k] == c[k - |b|]; }
    }
  }

  /** Running over one more sample is one more step. */
  lemma RunSnoc(st: ScanState, a: seq<Sample>, x: Sample, markers: seq<int>)
    ensures RunFrom(st, a + [x], markers) == Step(RunFrom(st, a, markers), x, markers)
  {
    assert (a + [x])[..|a + [x]| - 1] == a;
  }

  /** With no range open, an alive sample up to the next round end opens a range at its own tick. */
  lemma OpenStep(st: ScanState, s: int, markers: seq<int>)
    requires st.start.None?
    requires NextMarker(markers, st.cursor).Some? ==> s <= NextMarker(markers, st.cursor).value
    ensures Step(st, Sample(s, true), markers) == st.(start := Some(s))
  {
  }

  /**
    From any state with no range open, alive samples on the consecutive ticks
    `s..e`, none past the next round end, open one range at `s` and close
    nothing.
   */
  lemma AliveSpanOpen(st: ScanState, s: int, e: int, markers: seq<int>)
    requires st.start.None?
    requires s <= e
    requires NextMarker(markers, st.cursor).Some? ==> e <= NextMarker(markers, st.cursor).value
    ensures RunFrom(st, Span(s, e, true), markers) == st.(start := Some(s))
  {
    var rest := Span(s + 1, e, true);
    SpanSplit(s, s, e, true);
    assert Span(s, e, true) == [Sample(s, true)] + rest;
    RunSnoc(st, [], Sample(s, true), markers);
    assert [] + [Sample(s, true)] == [Sample(s, true)];
    OpenStep(st, s, markers);
    AliveRunHolds(st.(start := Some(s)), rest, markers);
    RunFromAppend(st, [Sample(s, true)], rest, markers);
  }

  /**
    From any state with a range open, a dead sample at `t` up to the next
    round end closes that range at `t - 1` and keeps the cursor.
   */
  lemma DeathStep(st: ScanState, t: int, markers: seq<int>)
    requires st.start.Some?
    requires NextMarker(markers, st.cursor).Some? ==> NextMarker(markers, st.cursor).value >= t
    ensures Step(st, Sample(t, false), markers)
            == ScanState(None, st.cursor, st.ranges + [Range(st.start.value, t - 1)])
  {
  }

  /**
    Death closure, in any round: from a state with no range open, alive on
    `s..t-1`, dead at `t` and afterwards, with the next round end not before
    `t`, adds exactly the range (s, t - 1), ending one tick before the death
    sample, and leaves nothing open.
   */
  lemma DeathClosesBeforeDeathTick(st: ScanState, s: int, t: int, tail: seq<Sample>, markers: seq<int>)
    requires st.start.None?
    requires s < t
    requires NextMarker(markers, st.cursor).Some? ==> NextMarker(markers, st.cursor).value >= t
    requires forall k :: 0 <= k < |tail| ==> !tail[k].alive
    ensures var final := RunFrom(st, Span(s, t - 1, true) + [Sample(t, false)] + tail, markers);
      final.start.None? && final.ranges == st.ranges + [Range(s, t - 1)]
  {
    var upToDeath := Span(s, t - 1, true) + [Sample(t, false)];
    var closed := ScanState(None, st.cursor, st.ranges + [Range(s, t - 1)]);
    assert RunFrom(st, upToDeath, markers) == closed by {
      AliveSpanOpen(st, s, t - 1, markers);
      RunSnoc(st, Span(s, t - 1, true), Sample(t, false), markers);
      DeathStep(st.(start := Some(s)), t, markers);
    }
    DeadRunQuiet(closed, tail, markers);
    RunFromAppend(st, upToDeath, tail, markers);
  }

  /**
    A player dead through `pre`, alive on `s..t-1` and dead from `t` on, with
    no round end in `1..t-1`, gets exactly the one range (s, t - 1).
   */
  lemma SingleLifeRange(pre: seq<Sample>, s: int, t: int, tail: seq<Sample>, markers: seq<int>)
    requires forall k :: 0 <= k < |pre| ==> !pre[k].alive
    requires s < t && t - 1 - s < MAX_LEN
    requires forall m :: m in markers && m > 0 ==> m >= t
    requires forall k :: 0 <= k < |tail| ==> !tail[k].alive
    ensures AliveRangesOf(pre + Span(s, t - 1, true) + [Sample(t, false)] + tail, markers) == [Range(s, t - 1)]
  {
    var st := Run(pre, markers);
    DeadRunQuiet(Init, pre, markers);
    RunCursorMonotone(Init, pre, markers);
    DeathClosesBeforeDeathTick(st, s, t, tail, markers);
    var rest := Span(s, t - 1, true) + [Sample(t, false)] + tail;
    assert pre + Span(s, t - 1, true) + [Sample(t, false)] + tail == pre + rest;
    RunFromAppend(Init, pre, rest, markers);
    assert [] + [Range(s, t - 1)] == [Range(s, t - 1)];
    KeepShortAllShort([Range(s, t - 1)]);
  }

  /**
    Dead on 50..99, alive on 100..250, dead on 251..400, with a round end at
    300: the one range (100, 250).
   */
  lemma DeathClosureExample()
    ensures AliveRangesOf(Span(50, 99, false) + Span(100, 250, true) + [Sample(251, false)] + Span(252, 400, false),
                          [300])
            == [Range(100, 250)]
  {
    SingleLifeRange(Span(50, 99, false), 100, 251, Span(252, 400, false), [300]);
  }

  /**
    From any state, a sample past the next round end `m` clips the open range
    (if any) at `m` itself and moves the cursor onto `m`; the sample then
    opens a new range at its own tick when alive and leaves none open when
    dead.
   */
  lemma ClipStep(st: ScanState, x: Sample, m: int, markers: seq<int>)
    requires NextMarker(markers, st.cursor) == Some(m) && x.tick > m
    ensures Step(st, x, markers) == ScanState(
      if x.alive then Some(x.tick) else None,
      m,
      if st.start.Some? then st.ranges + [Range(st.start.value, m)] else st.ranges)
  {
  }

  /**
    Boundary clipping, in any round: from a state with no range open, alive
    over `s..e` while the next round end `m` lies in between closes (s, m) at
    the round end itself, moves the cursor onto `m` and holds a new range
    open from `m + 1`.
   */
  lemma BoundaryClipsAtRoundEnd(st: ScanState, s: int, m: int, e: int, markers: seq<int>)
    requires st.start.None?
    requires s <= m < e
    requires NextMarker(markers, st.cursor) == Some(m)
    requires NextMarker(markers, m).Some? ==> NextMarker(markers, m).value >= e
    ensures RunFrom(st, Span(s, e, true), markers) == ScanState(Some(m + 1), m, st.ranges + [Range(s, m)])
  {
    var upToClip := Span(s, m, true) + [Sample(m + 1, true)];
    var after := Span(m + 2, e, true);
    var reopened := ScanState(Some(m + 1), m, st.ranges + [Range(s, m)]);
    assert Span(s, e, true) == upToClip + after by {
      SpanSplit(s, m, e, true);
      SpanSplit(m + 1, m + 1, e, true);
      assert Span(m + 1, e, true) == [Sample(m + 1, true)] + after;
    }
    assert RunFrom(st, upToClip, markers) == reopened by {
      AliveSpanOpen(st, s, m, markers);
      RunSnoc(st, Span(s, m, true), Sample(m + 1, true), markers);
      ClipStep(st.(start := Some(s)), Sample(m + 1, true), m, markers);
    }
    assert RunFrom(reopened, after, markers) == reopened by {
      AliveRunHolds(reopened, after, markers);
    }
    RunFromAppend(st, upToClip, after, markers);
  }

  /**
    Alive over 100..500 with round ends at 300 and 600 gives (100, 300),
    clipped at the round end, and then (301, 600), the trailing range closed
    at the last round end.
   */
  lemma BoundaryClipExample()
    ensures AliveRangesOf(Span(100, 500, true), [300, 600]) == [Range(100, 300), Range(301, 600)]
  {
    BoundaryClipsAtRoundEnd(Init, 100, 300, 500, [300, 600]);
    assert [] + [Range(100, 300)] == [Range(100, 300)];
    TrailingRange(Span(100, 500, true), [300, 600]);
    KeepShortAllShort([Range(100, 300), Range(301, 600)]);
  }

  // ---------------------------------------------------------------------
  // Shape of the ranges when every tick is sampled

  /** Round ends listed in strictly increasing order. */
  predicate Increasing(markers: seq<int>)
  {
    forall i, j :: 0 <= i < j < |markers| ==> markers[i] < markers[j]
  }

  /** One sample per tick, with no gap. */
  predicate Consecutive(samples: seq<Sample>)
  {
    forall k :: 0 <= k < |samples| ==> samples[k].tick == samples[0].tick + k
  }

  /** Every range starts no later than it ends. */
  predicate Proper(rs: seq<Range>)
  {
    forall r :: r in rs ==> r.start <= r.end
  }

  /** Ranges ascend and do not overlap: each ends before the next starts. */
  predicate Ascending(rs: seq<Range>)
  {
    forall a, b :: 0 <= a < b < |rs| ==> rs[a].end < rs[b].start
  }

  /** No round end lies strictly inside a range. */
  predicate WithinRounds(rs: seq<Range>, markers: seq<int>)
  {
    forall r, m :: r in rs && m in markers ==> !(r.start < m < r.end)
  }

  /** With increasing round ends, the next round end after `cursor` is the least one. */
  lemma {:induction false} NextMarkerIsLeast(markers: seq<int>, cursor: int)
    requires Increasing(markers)
    ensures NextMarker(markers, cursor).Some? ==>
      forall m :: m in markers && m > cursor ==> NextMarker(markers, cursor).value <= m
  {
    if markers != [] && markers[0] <= cursor {
      NextMarkerIsLeast(markers[1..], cursor);
      assert forall m :: m in markers ==> m == markers[0] || m in markers[1..];
    }
  }

  /**
    What holds after the pass has processed every tick up to `last`: the
    cursor has caught up with every round end before `last`, the closed
    ranges are proper, ascending and within one round each, and an open range
    started at or before `last`, after every closed range, with no round end
    strictly between its start and `last`.
   */
  ghost predicate ScanInv(st: ScanState, last: int, markers: seq<int>)
  {
    && 0 <= st.cursor
    && (st.cursor == 0 || st.cursor < last)
    && (forall m :: m in markers && 0 < m < last ==> m <= st.cursor)
    && Proper(st.ranges) && Ascending(st.ranges) && WithinRounds(st.ranges, markers)
    && (forall r :: r in st.ranges ==> 0 <= r.start && r.end <= last)
    && (st.start.Some? ==>
          && 0 <= st.start.value <= last
          && (forall r :: r in st.ranges ==> r.end < st.start.value)
          && (forall m :: m in markers ==> !(st.start.value < m < last)))
  }

  /** The same after the boundary check at tick `t`, before the sample's liveliness is looked at. */
  ghost predicate CheckedInv(st: ScanState, t: int, markers: seq<int>)
  {
    && 0 <= st.cursor
    && (st.cursor == 0 || st.cursor < t)
    && (forall m :: m in markers && 0 < m < t ==> m <= st.cursor)
    && Proper(st.ranges) && Ascending(st.ranges) && WithinRounds(st.ranges, markers)
    && (forall r :: r in st.ranges ==> 0 <= r.start && r.end < t)
    && (st.start.Some? ==>
          && 0 <= st.start.value < t
          && (forall r :: r in st.ranges ==> r.end < st.start.value)
          && (forall m :: m in markers ==> !(st.start.value < m < t)))
  }

  /** Appending a range after every existing one keeps the ranges ascending. */
  lemma AppendAscending(rs: seq<Range>, r: Range)
    requires Ascending(rs)
    requires forall q :: q in rs ==> q.end < r.start
    ensures Ascending(rs + [r])
  {
    var rs' := rs + [r];
    forall a, b | 0 <= a < b < |rs'| ensures rs'[a].end < rs'[b].start {
      assert rs'[a] in rs;
      if b < |rs| { assert rs'[a] == rs[a] && rs'[b] == rs[b]; }
    }
  }

  /**
    The boundary check at the tick after `last` passes at most the round end
    at `last` itself: a range it clips ends at `last`.
   */
  lemma CrossBoundaryKeepsInv(st: ScanState, last: int, markers: seq<int>)
    requires Increasing(markers)
    requires ScanInv(st, last, markers)
    ensures CheckedInv(CrossBoundary(st, last + 1, markers), last + 1, markers)
  {
    var t := last + 1;
    var next := NextMarker(markers, st.cursor);
    NextMarkerIsLeast(markers, st.cursor);
    if next.Some? && t > next.value {
      var m := next.value;
      assert m == last;
      if st.start.Some? {
        AppendAscending(st.ranges, Range(st.start.value, m));
      }
    }
  }

  /** Opening, closing at the tick before a death, or keeping a range open all preserve the invariant. */
  lemma LivelinessKeepsInv(st: ScanState, x: Sample, markers: seq<int>)
    requires CheckedInv(st, x.tick, markers)
    requires 0 <= x.tick
    ensures ScanInv(Liveliness(st, x), x.tick, markers)
  {
    if !x.alive && st.start.Some? {
      AppendAscending(st.ranges, Range(st.start.value, x.tick - 1));
    }
  }

  lemma StepKeepsInv(st: ScanState, x: Sample, last: int, markers: seq<int>)
    requires Increasing(markers)
    requires ScanInv(st, last, markers)
    requires x.tick == last + 1 && 0 <= x.tick
    ensures ScanInv(Step(st, x, markers), last + 1, markers)
  {
    CrossBoundaryKeepsInv(st, last, markers);
    LivelinessKeepsInv(CrossBoundary(st, x.tick, markers), x, markers);
  }

  /**
    At most one positive round end lies before `tick`: every round end listed
    after a positive one is at or after `tick`.
   */
  predicate AtMostOneRoundEndBefore(markers: seq<int>, tick: int)
  {
    forall i, j :: 0 <= i < j < |markers| && 0 < markers[i] ==> tick <= markers[j]
  }

  /**
    With increasing round ends, only the first positive round end may lie
    before `tick`: every positive round end above another one is at or after
    `tick`.
   */
  lemma OnlyFirstRoundEndBefore(markers: seq<int>, tick: int)
    requires Increasing(markers)
    requires AtMostOneRoundEndBefore(markers, tick)
    ensures forall a, b :: a in markers && b in markers && 0 < a < b ==> tick <= b
  {
    forall a, b | a in markers && b in markers && 0 < a < b ensures tick <= b {
      var i :| 0 <= i < |markers| && markers[i] == a;
      var j :| 0 <= j < |markers| && markers[j] == b;
      assert i < j;
    }
  }

  /**
    A player first sampled after at most one round end: the first iteration
    passes that round end, if any, and establishes the invariant.
   */
  lemma FirstStepKeepsInv(x: Sample, markers: seq<int>)
    requires Increasing(markers)
    requires 0 <= x.tick
    requires AtMostOneRoundEndBefore(markers, x.tick)
    ensures ScanInv(Step(Init, x, markers), x.tick, markers)
  {
    NextMarkerIsLeast(markers, 0);
    OnlyFirstRoundEndBefore(markers, x.tick);
    var st := CrossBoundary(Init, x.tick, markers);
    assert CheckedInv(st, x.tick, markers);
    LivelinessKeepsInv(st, x, markers);
  }

  lemma {:induction false} RunKeepsInv(samples: seq<Sample>, markers: seq<int>, n: nat)
    requires Increasing(markers) && Consecutive(samples)
    requires samples != [] && 0 <= samples[0].tick
    requires AtMostOneRoundEndBefore(markers, samples[0].tick)
    requires 1 <= n <= |samples|
    ensures ScanInv(RunFrom(Init, samples[..n], markers), samples[0].tick + n - 1, markers)
  {
    if n == 1 {
      assert samples[..1] == [samples[0]] && [samples[0]][..0] == [];
      FirstStepKeepsInv(samples[0], markers);
    } else {
      RunKeepsInv(samples, markers, n - 1);
      assert samples[..n][..n - 1] == samples[..n - 1];
      StepKeepsInv(RunFrom(Init, samples[..n - 1], markers), samples[n - 1],
                   samples[0].tick + n - 2, markers);
    }
  }

  /** The length filter keeps ranges proper, ascending and within one round each. */
  lemma {:induction false} KeepShortKeepsShape(rs: seq<Range>, markers: seq<int>)
    requires Proper(rs) && Ascending(rs) && WithinRounds(rs, markers)
    ensures Proper(KeepShort(rs)) && Ascending(KeepShort(rs)) && WithinRounds(KeepShort(rs), markers)
  {
    KeepShortMembers(rs);
    if rs != [] {
      var init, r := rs[..|rs| - 1], rs[|rs| - 1];
      assert Proper(init) && WithinRounds(init, markers) by {
        assert forall q :: q in init ==> q in rs;
      }
      assert Ascending(init);
      KeepShortKeepsShape(init, markers);
      if IsShort(r) {
        KeepShortMembers(init);
        forall q | q in KeepShort(init) ensures q.end < r.start {
          var a :| 0 <= a < |init| && init[a] == q;
          assert rs[a] == q;
        }
        AppendAscending(KeepShort(init), r);
      }
    }
  }

  /**
    With one sample per tick from a non-negative first tick, round ends in
    increasing order and at most one positive round end before the first
    sample: every range the pass closes inside its loop is proper, the ranges
    ascend without overlapping and no round end lies strictly inside one; all of this survives the
    length filter, and it is the whole result when the player is dead at the
    last sample (otherwise the trailing range is appended after them).
   */
  lemma RangesWellShaped(samples: seq<Sample>, markers: seq<int>)
    requires Increasing(markers) && Consecutive(samples)
    requires samples != [] && 0 <= samples[0].tick
    requires AtMostOneRoundEndBefore(markers, samples[0].tick)
    ensures var rs := Run(samples, markers).ranges;
      && Proper(rs) && Ascending(rs) && WithinRounds(rs, markers)
      && Proper(KeepShort(rs)) && Ascending(KeepShort(rs)) && WithinRounds(KeepShort(rs), markers)
    ensures Run(samples, markers).start.None? ==>
      AliveRangesOf(samples, markers) == KeepShort(Run(samples, markers).ranges)
  {
    RunKeepsInv(samples, markers, |samples|);
    assert samples[..|samples|] == samples;
    KeepShortKeepsShape(Run(samples, markers).ranges, markers);
  }

  // ---------------------------------------------------------------------
  // A player whose first sample lies beyond several round ends

  /**
    A player first sampled after two round ends: the first sample moves the
    cursor past only the first of them, so the next sample clips the range
    just opened at the second one, which lies before the range's start.
   */
  lemma LateJoinerClipsAtStaleRoundEnd()
    ensures Run([Sample(100, true), Sample(101, true)], [10, 20, 300]).ranges == [Range(100, 20)]
    ensures !Proper(Run([Sample(100, true), Sample(101, true)], [10, 20, 300]).ranges)
    ensures AliveRangesOf([Sample(100, true), Sample(101, true)], [10, 20, 300])
            == [Range(100, 20), Range(101, 300)]
  {
    var samples := [Sample(100, true), Sample(101, true)];
    var markers := [10, 20, 300];
    assert samples[..1] == [Sample(100, true)] && [Sample(100, true)][..0] == [];
    assert NextMarker(markers, 0) == Some(10);
    assert NextMarker(markers, 10) == Some(20);
    assert NextMarker(markers, 20) == Some(300);
    var st1 := ScanState(Some(100), 10, []);
    assert Run([Sample(100, true)], markers) == st1;
    assert Run(samples, markers) == ScanState(Some(101), 20, [Range(100, 20)]);
    KeepShortAllShort([Range(100, 20), Range(101, 300)]);
  }

  /**
    The same round ends with the player dead on its first two samples: each
    dead sample moves the cursor past one stale round end, so by the time the
    player is alive the cursor has caught up and the range is clipped only at
    the round end 300.
   */
  lemma DeadLateJoinerCatchesUp()
    ensures Run([Sample(100, false), Sample(101, false), Sample(102, true), Sample(103, true)], [10, 20, 300])
            == ScanState(Some(102), 20, [])
    ensures AliveRangesOf([Sample(100, false), Sample(101, false), Sample(102, true), Sample(103, true)],
                          [10, 20, 300])
            == [Range(102, 300)]
  {
    var samples := [Sample(100, false), Sample(101, false), Sample(102, true), Sample(103, true)];
    var markers := [10, 20, 300];
    assert samples[..3] == [Sample(100, false), Sample(101, false), Sample(102, true)];
    assert samples[..3][..2] == [Sample(100, false), Sample(101, false)];
    assert samples[..3][..2][..1] == [Sample(100, false)] && [Sample(100, false)][..0] == [];
    assert NextMarker(markers, 0) == Some(10);
    assert NextMarker(markers, 10) == Some(20);
    assert NextMarker(markers, 20) == Some(300);
    assert Run(samples[..3][..2][..1], markers) == ScanState(None, 10, []);
    assert Run(samples[..3][..2], markers) == ScanState(None, 20, []);
    assert Run(samples[..3], markers) == ScanState(Some(102), 20, []);
    KeepShortAllShort([Range(102, 300)]);
  }

  /** The last round end of the match, or 0 when there is none: no round end lies after it. */
  function LatestMarker(markers: seq<int>): (r: int)
    ensures forall m :: m in markers ==> m <= r
  {
    if markers == [] then 0
    else
      assert forall m :: m in markers <==> m == markers[0] || m in markers[1..];
      var rest := LatestMarker(markers[1..]);
      if markers[0] > rest then markers[0] else rest
  }

  /**
    The boundary check as evidently intended: pass every round end the tick
    has gone beyond, clipping an open range at the first of them.
   */
  function CrossAllBoundaries(st: ScanState, tick: int, markers: seq<int>): ScanState
    decreases LatestMarker(markers) - st.cursor
  {
    var next := NextMarker(markers, st.cursor);
    if next.Some? && tick > next.value then CrossAllBoundaries(CrossBoundary(st, tick, markers), tick, markers)
    else st
  }

  /** An iteration of the intended pass. */
  function StepIntended(st: ScanState, s: Sample, markers: seq<int>): ScanState
  {
    Liveliness(CrossAllBoundaries(st, s.tick, markers), s)
  }

  function RunIntendedFrom(st: ScanState, samples: seq<Sample>, markers: seq<int>): ScanState
  {
    if samples == [] then st
    else StepIntended(RunIntendedFrom(st, samples[..|samples| - 1], markers), samples[|samples| - 1], markers)
  }

  function RunIntended(samples: seq<Sample>, markers: seq<int>): ScanState
  {
    RunIntendedFrom(Init, samples, markers)
  }

  /** The intended extraction: the same trailing close and length filter over the intended pass. */
  function AliveRangesIntended(samples: seq<Sample>, markers: seq<int>): seq<Range>
  {
    KeepShort(Close(RunIntended(samples, markers), samples, markers))
  }

  /**
    With no range open, the intended boundary check closes nothing, and with
    increasing round ends it leaves the cursor on the last round end before
    `tick` (or where it was when there is none).
   */
  lemma {:induction false} CrossAllFromClosed(st: ScanState, tick: int, markers: seq<int>)
    requires Increasing(markers)
    requires st.start.None?
    ensures var r := CrossAllBoundaries(st, tick, markers);
      && r.start.None? && r.ranges == st.ranges
      && r.cursor >= st.cursor
      && (r.cursor == st.cursor || r.cursor < tick)
      && (forall m :: m in markers && st.cursor < m < tick ==> m <= r.cursor)
    decreases LatestMarker(markers) - st.cursor
  {
    var next := NextMarker(markers, st.cursor);
    NextMarkerIsLeast(markers, st.cursor);
    if next.Some? && tick > next.value {
      CrossAllFromClosed(CrossBoundary(st, tick, markers), tick, markers);
    }
  }

  /** At the tick after `last`, the intended boundary check does what the written one does. */
  lemma IntendedAgreesOnNextTick(st: ScanState, x: Sample, last: int, markers: seq<int>)
    requires Increasing(markers)
    requires ScanInv(st, last, markers)
    requires x.tick == last + 1
    ensures StepIntended(st, x, markers) == Step(st, x, markers)
  {
    var st1 := CrossBoundary(st, x.tick, markers);
    CrossBoundaryKeepsInv(st, last, markers);
    assert CrossAllBoundaries(st1, x.tick, markers) == st1;
  }

  /** The first iteration of the intended pass establishes the range invariant at its tick. */
  lemma IntendedFirstStep(x: Sample, markers: seq<int>)
    requires Increasing(markers)
    requires 0 <= x.tick
    ensures ScanInv(RunIntendedFrom(Init, [x], markers), x.tick, markers)
  {
    assert [x][..0] == [];
    CrossAllFromClosed(Init, x.tick, markers);
    var r := CrossAllBoundaries(Init, x.tick, markers);
    assert CheckedInv(r, x.tick, markers);
    LivelinessKeepsInv(r, x, markers);
  }

  /** Over the tick after `last`, the intended iteration keeps the range invariant. */
  lemma IntendedStepKeepsInv(st: ScanState, x: Sample, last: int, markers: seq<int>)
    requires Increasing(markers)
    requires ScanInv(st, last, markers)
    requires x.tick == last + 1 && 0 <= x.tick
    ensures ScanInv(StepIntended(st, x, markers), last + 1, markers)
  {
    IntendedAgreesOnNextTick(st, x, last, markers);
    StepKeepsInv(st, x, last, markers);
  }

  lemma {:induction false} RunIntendedKeepsInv(samples: seq<Sample>, markers: seq<int>, n: nat)
    requires Increasing(markers) && Consecutive(samples)
    requires samples != [] && 0 <= samples[0].tick
    requires 1 <= n <= |samples|
    ensures ScanInv(RunIntendedFrom(Init, samples[..n], markers), samples[0].tick + n - 1, markers)
  {
    if n == 1 {
      assert samples[..1] == [samples[0]];
      IntendedFirstStep(samples[0], markers);
    } else {
      RunIntendedKeepsInv(samples, markers, n - 1);
      var st := RunIntendedFrom(Init, samples[..n - 1], markers);
      assert samples[..n][..n - 1] == samples[..n - 1];
      IntendedStepKeepsInv(st, samples[n - 1], samples[0].tick + n - 2, markers);
    }
  }

  /**
    With one sample per tick from a non-negative first tick and round ends in
    increasing order, whenever the player is first sampled: every range the
    intended pass closes inside its loop is proper, the ranges ascend without
    overlapping and no round end lies strictly inside one, before and after
    the length filter.
   */
  lemma IntendedRangesWellShaped(samples: seq<Sample>, markers: seq<int>)
    requires Increasing(markers) && Consecutive(samples)
    requires samples != [] && 0 <= samples[0].tick
    ensures var rs := RunIntended(samples, markers).ranges;
      && Proper(rs) && Ascending(rs) && WithinRounds(rs, markers)
      && Proper(KeepShort(rs)) && Ascending(KeepShort(rs)) && WithinRounds(KeepShort(rs), markers)
  {
    RunIntendedKeepsInv(samples, markers, |samples|);
    assert samples[..|samples|] == samples;
    KeepShortKeepsShape(RunIntended(samples, markers).ranges, markers);
  }

  /** The late joiner under the intended pass: one range, from the first sample to the last round end. */
  lemma LateJoinerIntended()
    ensures RunIntended([Sample(100, true), Sample(101, true)], [10, 20, 300]).ranges == []
    ensures AliveRangesIntended([Sample(100, true), Sample(101, true)], [10, 20, 300]) == [Range(100, 300)]
  {
    var samples := [Sample(100, true), Sample(101, true)];
    var markers := [10, 20, 300];
    assert samples[..1] == [Sample(100, true)] && [Sample(100, true)][..0] == [];
    assert NextMarker(markers, 0) == Some(10);
    assert NextMarker(markers, 10) == Some(20);
    assert NextMarker(markers, 20) == Some(300);
    assert CrossAllBoundaries(Init, 100, markers) == ScanState(None, 20, []);
    assert RunIntended([Sample(100, true)], markers) == ScanState(Some(100), 20, []);
    assert RunIntended(samples, markers) == ScanState(Some(100), 20, []);
    KeepShortAllShort([Range(100, 300)]);
  }
}

=== FILE: assembly.dfy ===
/**
  Frame assembly: one frame per tick of an alive range, one round-frames
  object per range of a player, one point-of-view object per roster entry,
  keyed by the decimal rendering of the steam id.

  `BuildFrames`, `PovError` and `LeadingCount` specify what the loops of
  the three classes produce; a missing row aborts the build that needed it.
  They are built on the corrected action decoder; `BuildFramesAsWritten`
  is the frame build on the decoder as written.
 */
module Assembly {
  import opened Telemetry
  import opened Frames
  import opened AliveRanges

  // ---------------------------------------------------------------------
  // Frames of one range

  /**
    The frames for the ticks `lo..hi` in ascending order, or the error of
    the first tick that has no row.
   */
  function BuildFrames(rows: map<(PlayerId, int), RawRow>, steamid: PlayerId, lo: int, hi: int)
    : Result<seq<PlayerFrame>, DecodeError>
    decreases hi - lo + 1
  {
    if hi < lo then Success([])
    else
      match BuildFrames(rows, steamid, lo, hi - 1)
      case Failure(e) => Failure(e)
      case Success(frames) =>
        match NewPlayerFrame(rows, steamid, hi)
        case Failure(e) => Failure(e)
        case Success(f) => Success(frames + [f])
  }

  /**
    The build succeeds exactly when every tick of the range has a row; then
    there are `max(0, hi - lo + 1)` frames, frame `i` is the decoded frame of
    tick `lo + i`. Otherwise the error names the earliest tick without a row.
   */
  lemma {:induction false} BuildFramesSpec(rows: map<(PlayerId, int), RawRow>, steamid: PlayerId, lo: int, hi: int)
    ensures BuildFrames(rows, steamid, lo, hi).Success? <==>
            forall t :: lo <= t <= hi ==> (steamid, t) in rows
    ensures BuildFrames(rows, steamid, lo, hi).Success? ==>
      var fs := BuildFrames(rows, steamid, lo, hi).value;
      && |fs| == (if hi < lo then 0 else hi - lo + 1)
      && forall i :: 0 <= i < |fs| ==>
           fs[i].tick == lo + i && NewPlayerFrame(rows, steamid, lo + i) == Success(fs[i])
    ensures BuildFrames(rows, steamid, lo, hi).Failure? ==>
      var e := BuildFrames(rows, steamid, lo, hi).error;
      && e.steamid == steamid
      && lo <= e.tick <= hi
      && (steamid, e.tick) !in rows
      && forall t :: lo <= t < e.tick ==> (steamid, t) in rows
    decreases hi - lo + 1
  {
    if lo <= hi {
      BuildFramesSpec(rows, steamid, lo, hi - 1);
    }
  }

  /** A failure inside `lo..k` is the failure of every longer range from `lo`. */
  lemma {:induction false} BuildFramesFailureExtends(rows: map<(PlayerId, int), RawRow>, steamid: PlayerId,
                                                     lo: int, k: int, hi: int)
    requires k <= hi
    requires BuildFrames(rows, steamid, lo, k).Failure?
    ensures BuildFrames(rows, steamid, lo, hi) == BuildFrames(rows, steamid, lo, k)
    decreases hi - k
  {
    if k < hi {
      BuildFramesFailureExtends(rows, steamid, lo, k, hi - 1);
    }
  }

  /**
    The frames of `lo..hi` built on the action decoder as written, as the
    program stands: the first tick decoded already fails.
   */
  function BuildFramesAsWritten(rows: map<(PlayerId, int), RawRow>, steamid: PlayerId, lo: int, hi: int)
    : Result<seq<PlayerFrame>, ActionError>
    decreases hi - lo + 1
  {
    if hi < lo then Success([])
    else
      match BuildFramesAsWritten(rows, steamid, lo, hi - 1)
      case Failure(e) => Failure(e)
      case Success(frames) =>
        match NewPlayerFrameAsWritten(rows, steamid, hi)
        case Failure(e) => Failure(e)
        case Success(f) => Success(frames + [f])
  }

  /**
    As written, no range with `lo <= hi` builds: it fails at its first tick,
    with the type error when that tick has a row and the not-found error
    otherwise. An empty range builds no frames.
   */
  lemma {:induction false} BuildFramesAsWrittenFails(rows: map<(PlayerId, int), RawRow>, steamid: PlayerId,
                                                     lo: int, hi: int)
    ensures hi < lo ==> BuildFramesAsWritten(rows, steamid, lo, hi) == Success([])
    ensures lo <= hi ==>
              BuildFramesAsWritten(rows, steamid, lo, hi)
              == Failure(if (steamid, lo) in rows then TakesNoArguments else Missing(NotFound(steamid, lo)))
    decreases hi - lo + 1
  {
    if lo < hi {
      BuildFramesAsWrittenFails(rows, steamid, lo, hi - 1);
    }
  }

  /**
    Where every tick of a non-empty range has a row, the corrected build
    succeeds and the build as written fails with the type error.
   */
  lemma AsWrittenBuildDiverges(rows: map<(PlayerId, int), RawRow>, steamid: PlayerId, lo: int, hi: int)
    requires lo <= hi
    requires forall t :: lo <= t <= hi ==> (steamid, t) in rows
    ensures BuildFrames(rows, steamid, lo, hi).Success?
    ensures BuildFramesAsWritten(rows, steamid, lo, hi) == Failure(TakesNoArguments)
  {
    BuildFramesSpec(rows, steamid, lo, hi);
    BuildFramesAsWrittenFails(rows, steamid, lo, hi);
  }

  /** One player's frames for one alive range. */
  class PlayerRoundFrames {
    const startTick: int
    const endTick: int
    const steamid: PlayerId
    var playerFrames: seq<PlayerFrame>

    constructor (startTick: int, endTick: int, steamid: PlayerId)
      ensures this.startTick == startTick && this.endTick == endTick && this.steamid == steamid
      ensures playerFrames == []
    {
      this.startTick := startTick;
      this.endTick := endTick;
      this.steamid := steamid;
      playerFrames := [];
    }

    /** The frames hold the successful build of this range. */
    ghost predicate Built(rows: map<(PlayerId, int), RawRow>)
      reads this
    {
      BuildFrames(rows, steamid, startTick, endTick) == Success(playerFrames)
    }

    /**
      Appends one frame per tick of `startTick..endTick`, in order; a tick
      without a row stops the build with its error, leaving the frames of
      the ticks before it.
     */
    method BuildPlayerFrames(rows: map<(PlayerId, int), RawRow>) returns (err: Option<DecodeError>)
      requires playerFrames == []
      modifies this`playerFrames
      ensures err.None? <==> BuildFrames(rows, steamid, startTick, endTick).Success?
      ensures err.None? ==> Built(rows)
      ensures err.Some? ==>
        && BuildFrames(rows, steamid, startTick, endTick) == Failure(err.value)
        && BuildFrames(rows, steamid, startTick, err.value.tick - 1) == Success(playerFrames)
    {
      var tick := startTick;
      while tick <= endTick
        invariant startTick <= tick && (tick <= endTick + 1 || tick == startTick)
        invariant BuildFrames(rows, steamid, startTick, tick - 1) == Success(playerFrames)
        decreases endTick + 1 - tick
      {
        var frame := NewPlayerFrame(rows, steamid, tick);
        if frame.Failure? {
          BuildFramesFailureExtends(rows, steamid, startTick, tick, endTick);
          return Some(frame.error);
        }
        playerFrames := playerFrames + [frame.value];
        tick := tick + 1;
      }
      return None;
    }

    /**
      A new round-frames object for `startTick..endTick` with its frames
      built, or the error of the first tick without a row.
     */
    static method Build(rows: map<(PlayerId, int), RawRow>, startTick: int, endTick: int, steamid: PlayerId)
      returns (rf: PlayerRoundFrames, err: Option<DecodeError>)
      ensures fresh(rf)
      ensures rf.startTick == startTick && rf.endTick == endTick && rf.steamid == steamid
      ensures err.None? <==> BuildFrames(rows, steamid, startTick, endTick).Success?
      ensures err.None? ==> rf.Built(rows)
      ensures err.Some? ==> BuildFrames(rows, steamid, startTick, endTick) == Failure(err.value)
    {
      rf := new PlayerRoundFrames(startTick, endTick, steamid);
      err := rf.BuildPlayerFrames(rows);
    }
  }

  // ---------------------------------------------------------------------
  // Stopping at the first failure

  /**
    The number of leading elements of `xs` that satisfy `ok`: how far a
    build over `xs` that stops at its first failure gets.
   */
  function LeadingCount<T>(xs: seq<T>, ok: T -> bool): (k: nat)
    ensures k <= |xs|
  {
    if xs == [] || !ok(xs[0]) then 0 else 1 + LeadingCount(xs[1..], ok)
  }

  /** Every element before the count succeeds, and the element at the count (if any) fails. */
  lemma {:induction false} LeadingCountSpec<T>(xs: seq<T>, ok: T -> bool)
    ensures var k := LeadingCount(xs, ok);
      && (forall j :: 0 <= j < k ==> ok(xs[j]))
      && (k < |xs| ==> !ok(xs[k]))
  {
    if xs != [] && ok(xs[0]) {
      LeadingCountSpec(xs[1..], ok);
      var k := LeadingCount(xs, ok);
      forall j | 0 < j < k
        ensures ok(xs[j])
      {
        assert xs[j] == xs[1..][j - 1];
      }
      if k < |xs| {
        assert xs[k] == xs[1..][k - 1];
      }
    }
  }

  /** Conversely, an index with only successes before it and a failure (or the end) at it is the count. */
  lemma {:induction false} LeadingCountAt<T>(xs: seq<T>, ok: T -> bool, i: nat)
    requires i <= |xs|
    requires forall j :: 0 <= j < i ==> ok(xs[j])
    requires i < |xs| ==> !ok(xs[i])
    ensures LeadingCount(xs, ok) == i
  {
    if i > 0 {
      forall j | 0 <= j < i - 1
        ensures ok(xs[1..][j])
      {
        assert xs[1..][j] == xs[j + 1];
      }
      if i < |xs| {
        assert xs[1..][i - 1] == xs[i];
      }
      LeadingCountAt(xs[1..], ok, i - 1);
    }
  }

  // ---------------------------------------------------------------------
  // Round frames of one player

  /** Whether the frames of an alive range build. */
  function RangeBuilds(rows: map<(PlayerId, int), RawRow>, steamid: PlayerId): Range -> bool
  {
    (r: Range) => BuildFrames(rows, steamid, r.start, r.end).Success?
  }

  /** The error that aborts a player's point of view, if any. */
  function PovError(demo: Demo, steamid: PlayerId): Option<DecodeError>
  {
    var ranges := AliveRangesSpec(demo, steamid);
    var k := LeadingCount(ranges, RangeBuilds(demo.rows, steamid));
    if k < |ranges| then
      LeadingCountSpec(ranges, RangeBuilds(demo.rows, steamid));
      Some(BuildFrames(demo.rows, steamid, ranges[k].start, ranges[k].end).error)
    else None
  }

  /**
    A player's point of view fails exactly when some alive range cannot be
    built, and then with the error of the earliest such range.
   */
  lemma PovErrorSpec(demo: Demo, steamid: PlayerId)
    ensures var ranges := AliveRangesSpec(demo, steamid);
      PovError(demo, steamid).None? <==>
        forall j :: 0 <= j < |ranges| ==> BuildFrames(demo.rows, steamid, ranges[j].start, ranges[j].end).Success?
    ensures var ranges := AliveRangesSpec(demo, steamid);
      PovError(demo, steamid).Some? ==>
        exists k :: 0 <= k < |ranges|
          && (forall j :: 0 <= j < k ==> BuildFrames(demo.rows, steamid, ranges[j].start, ranges[j].end).Success?)
          && BuildFrames(demo.rows, steamid, ranges[k].start, ranges[k].end) == Failure(PovError(demo, steamid).value)
  {
    LeadingCountSpec(AliveRangesSpec(demo, steamid), RangeBuilds(demo.rows, steamid));
  }

  /** One player's point of view: a round-frames object per alive range. */
  class PlayerPOVs {
    const steamid: PlayerId
    var roundFrames: seq<PlayerRoundFrames>

    constructor (steamid: PlayerId)
      ensures this.steamid == steamid && roundFrames == []
    {
      this.steamid := steamid;
      roundFrames := [];
    }

    /** The first `n` round frames cover the first `n` ranges, in order, each fully built. */
    ghost predicate RoundsMatch(rows: map<(PlayerId, int), RawRow>, ranges: seq<Range>, n: nat)
      reads this, roundFrames
    {
      && n <= |ranges|
      && |roundFrames| == n
      && forall i :: 0 <= i < n ==>
           && roundFrames[i].startTick == ranges[i].start
           && roundFrames[i].endTick == ranges[i].end
           && roundFrames[i].steamid == steamid
           && roundFrames[i].Built(rows)
    }

    /** Matching round frames mean the matched ranges build. */
    lemma RoundsMatchBuild(rows: map<(PlayerId, int), RawRow>, ranges: seq<Range>, n: nat)
      requires RoundsMatch(rows, ranges, n)
      ensures forall j :: 0 <= j < n ==> RangeBuilds(rows, steamid)(ranges[j])
    {
    }

    /** Every alive range of the player has its fully built round frames. */
    ghost predicate Built(demo: Demo)
      reads this, roundFrames
    {
      var ranges := AliveRangesSpec(demo, steamid);
      RoundsMatch(demo.rows, ranges, |ranges|)
    }

    /**
      A new point of view of `steamid` with every alive range built, or the
      error of the first range that fails.
     */
    static method Build(demo: Demo, steamid: PlayerId) returns (pov: PlayerPOVs, err: Option<DecodeError>)
      ensures fresh(pov) && pov.steamid == steamid
      ensures err == PovError(demo, steamid)
      ensures err.None? <==> pov.Built(demo)
    {
      pov := new PlayerPOVs(steamid);
      err := pov.ParseRoundFrames(demo);
    }

    /** Building other objects leaves a built point of view built. */
    twostate lemma BuiltStable(demo: Demo)
      requires old(Built(demo))
      requires unchanged(this)
      requires forall i :: 0 <= i < |roundFrames| ==> unchanged(roundFrames[i])
      ensures Built(demo)
    {
    }

    /**
      Builds the round frames of every alive range, in range order; the
      first range that cannot be built stops the build with its error.
     */
    method ParseRoundFrames(demo: Demo) returns (err: Option<DecodeError>)
      requires roundFrames == []
      modifies this`roundFrames
      ensures RoundsMatch(demo.rows, AliveRangesSpec(demo, steamid),
                          LeadingCount(AliveRangesSpec(demo, steamid), RangeBuilds(demo.rows, steamid)))
      ensures err == PovError(demo, steamid)
      ensures err.None? <==> Built(demo)
    {
      var ranges := GetPlayerAliveRanges(demo, steamid);
      var i := 0;
      err := None;
      while i < |ranges|
        invariant i <= |ranges|
        invariant err.None?
        invariant RoundsMatch(demo.rows, ranges, i)
      {
        var rf;
        rf, err := PlayerRoundFrames.Build(demo.rows, ranges[i].start, ranges[i].end, steamid);
        if err.Some? {
          break;
        }
        roundFrames := roundFrames + [rf];
        i := i + 1;
      }
      RoundsMatchBuild(demo.rows, ranges, i);
      LeadingCountAt(ranges, RangeBuilds(demo.rows, steamid), i);
    }
  }

  /** A fully built point of view is one whose player has no failing range. */
  lemma BuiltHasNoError(pov: PlayerPOVs, demo: Demo)
    requires pov.Built(demo)
    ensures PovError(demo, pov.steamid) == None
  {
    var ranges := AliveRangesSpec(demo, pov.steamid);
    LeadingCountAt(ranges, RangeBuilds(demo.rows, pov.steamid), |ranges|);
  }

  // ---------------------------------------------------------------------
  // All players

  function DigitChar(d: int): char
    requires 0 <= d < 10
  {
    ('0' as int + d) as char
  }

  /** The decimal digits of `n`, most significant first. */
  function Decimal(n: nat): (s: string)
    ensures 1 <= |s| && (10 <= n ==> 2 <= |s|)
    ensures forall i :: 0 <= i < |s| ==> '0' <= s[i] <= '9'
  {
    if n < 10 then [DigitChar(n)] else Decimal(n / 10) + [DigitChar(n % 10)]
  }

  /** `str(steamid)`: the key of a player in the collection. */
  function PlayerKey(steamid: PlayerId): string
  {
    if steamid < 0 then "-" + Decimal(-steamid) else Decimal(steamid)
  }

  lemma {:induction false} DecimalInjective(a: nat, b: nat)
    requires Decimal(a) == Decimal(b)
    ensures a == b
  {
    var s := Decimal(a);
    if 10 <= a && 10 <= b {
      assert Decimal(a / 10) == s[..|s| - 1] == Decimal(b / 10);
      DecimalInjective(a / 10, b / 10);
      assert DigitChar(a % 10) == s[|s| - 1] == DigitChar(b % 10);
    }
  }

  lemma KeySign(a: PlayerId)
    ensures PlayerKey(a)[0] == '-' <==> a < 0
  {
    if a >= 0 {
      assert '0' <= Decimal(a)[0] <= '9';
    }
  }

  /** Distinct steam ids get distinct keys, so the collection has one entry per distinct player. */
  lemma PlayerKeyInjective(a: PlayerId, b: PlayerId)
    ensures PlayerKey(a) == PlayerKey(b) <==> a == b
  {
    if PlayerKey(a) == PlayerKey(b) {
      var s := PlayerKey(a);
      if a < 0 && b < 0 {
        assert Decimal(-a) == s[1..] == Decimal(-b);
        DecimalInjective(-a, -b);
      } else if a >= 0 && b >= 0 {
        DecimalInjective(a, b);
      } else {
        KeySign(a);
        KeySign(b);
      }
    }
  }

  /** Whether the point of view of a player builds. */
  function PovBuilds(demo: Demo): PlayerId -> bool
  {
    (steamid: PlayerId) => PovError(demo, steamid).None?
  }

  /** The keys of the players `ids`. */
  function RosterKeys(ids: seq<PlayerId>): set<string>
  {
    set steamid | steamid in ids :: PlayerKey(steamid)
  }

  /** One more roster entry adds its key. */
  lemma RosterKeysSnoc(ids: seq<PlayerId>, i: nat)
    requires i < |ids|
    ensures RosterKeys(ids[..i + 1]) == RosterKeys(ids[..i]) + {PlayerKey(ids[i])}
  {
    assert ids[..i + 1] == ids[..i] + [ids[i]];
  }

  /** The points of view of every player in the match. */
  class DemoPOVs {
    var players: map<string, PlayerPOVs>

    constructor ()
      ensures players == map[]
    {
      players := map[];
    }

    /**
      Builds the point of view of one player and stores it under the
      player's key, replacing an earlier entry under that key; a failure
      stores nothing. Every entry stays the built point of view of the
      player whose key it is stored under.
     */
    method AddPlayer(demo: Demo, steamid: PlayerId) returns (err: Option<DecodeError>)
      requires forall key :: key in players ==>
        PlayerKey(players[key].steamid) == key && players[key].Built(demo)
      modifies this`players
      ensures err == PovError(demo, steamid)
      ensures err.Some? ==> players == old(players)
      ensures err.None? ==> players.Keys == old(players).Keys + {PlayerKey(steamid)}
      ensures err.None? ==> forall key :: key in old(players) && key != PlayerKey(steamid) ==>
        players[key] == old(players)[key]
      ensures forall key :: key in players ==>
        PlayerKey(players[key].steamid) == key && players[key].Built(demo)
    {
      label Before:
      var pov;
      pov, err := PlayerPOVs.Build(demo, steamid);
      forall key | key in players
        ensures players[key].Built(demo)
      {
        players[key].BuiltStable@Before(demo);
      }
      if err.None? {
        var before := players;
        players := players[PlayerKey(steamid) := pov];
        forall key | key in players
          ensures PlayerKey(players[key].steamid) == key && players[key].Built(demo)
        {
          if key != PlayerKey(steamid) {
            assert players[key] == before[key];
          }
        }
      }
    }

    /**
      Builds a point of view per roster entry, in roster order, under the
      player's key (a repeated id replaces the earlier entry with an equal
      one); the first player whose point of view fails stops the build with
      its error. `stop` is the roster index the build stopped at.
     */
    method InitPlayers(demo: Demo) returns (err: Option<DecodeError>, ghost stop: nat)
      requires players == map[]
      modifies this`players
      ensures stop <= |demo.roster|
      ensures err.None? <==> stop == |demo.roster|
      ensures err.Some? ==> err == PovError(demo, demo.roster[stop])
      ensures players.Keys == RosterKeys(demo.roster[..stop])
      ensures forall key :: key in players ==>
        PlayerKey(players[key].steamid) == key && players[key].Built(demo)
    {
      var i := 0;
      err := None;
      while i < |demo.roster|
        invariant i <= |demo.roster|
        invariant err.None?
        invariant players.Keys == RosterKeys(demo.roster[..i])
        invariant forall key :: key in players ==>
          PlayerKey(players[key].steamid) == key && players[key].Built(demo)
      {
        err := AddPlayer(demo, demo.roster[i]);
        if err.Some? {
          break;
        }
        RosterKeysSnoc(demo.roster, i);
        i := i + 1;
      }
      stop := i;
    }
  }

  /**
    A collection holding the built points of view of the first `stop`
    roster entries, under their keys, where entry `stop` fails (or the
    roster ends), stopped at the first failing player.
   */
  lemma StopsAtFirstFailure(demo: Demo, players: map<string, PlayerPOVs>, stop: nat)
    requires stop <= |demo.roster|
    requires stop < |demo.roster| ==> PovError(demo, demo.roster[stop]).Some?
    requires players.Keys == RosterKeys(demo.roster[..stop])
    requires forall key :: key in players ==>
      PlayerKey(players[key].steamid) == key && players[key].Built(demo)
    ensures stop == LeadingCount(demo.roster, PovBuilds(demo))
  {
    forall j | 0 <= j < stop
      ensures PovError(demo, demo.roster[j]).None?
    {
      assert demo.roster[j] in demo.roster[..stop];
      var key := PlayerKey(demo.roster[j]);
      var pov := players[key];
      PlayerKeyInjective(pov.steamid, demo.roster[j]);
      BuiltHasNoError(pov, demo);
    }
    LeadingCountAt(demo.roster, PovBuilds(demo), stop);
  }
}

=== FILE: frames.dfy ===
/**
  The frame decoders: one raw (player, tick) row becomes an action frame
  (control inputs) and an info frame (player state). Both are pure record
  maps; the only failure is a missing row.
 */
module Frames {
  import opened Telemetry

  /** Raised when the projection for (steamid, tick) comes back empty. */
  datatype DecodeError = NotFound(steamid: PlayerId, tick: int)

  /**
    The control inputs of one tick. `wasd` is the movement mask in the order
    forward, left, back, right. The source class declares no initialiser
    although its decoder builds it from these keyword arguments; this record
    is the field set that call evidently intends.
   */
  datatype ActionFrame = ActionFrame(
    wasd: seq<int>, team: int, walk: int, use: int, inspect: int,
    dx: int, dy: int, attack: int, lAttack: int, reload: int,
    select: int, jump: int, crouch: int, tick: int)

  /** The player state of one tick; `picPath` is left for a renderer to fill. */
  datatype InfoFrame = InfoFrame(
    tick: int, hp: int, team: int, weapon: int, round: int, time: int,
    armor: int, money: int, playerName: string, steamid: PlayerId,
    picPath: Option<string>)

  /** Both frames of one (player, tick). */
  datatype PlayerFrame = PlayerFrame(tick: int, info: InfoFrame, action: ActionFrame)

  /** `int(flag)` of a boolean. */
  function Bit(b: bool): int
  {
    if b then 1 else 0
  }

  predicate IsBit(x: int)
  {
    x == 0 || x == 1
  }

  /** `int(x)` of a float: truncation toward zero. */
  function TruncateTowardZero(x: real): (r: int)
    ensures 0.0 <= x ==> r as real <= x < r as real + 1.0
    ensures x < 0.0 ==> r as real - 1.0 < x <= r as real
  {
    if x >= 0.0 then x.Floor else -((-x).Floor)
  }

  /** The action frame of `steamid` at `tick`. */
  function GetPlayerAction(rows: map<(PlayerId, int), RawRow>, steamid: PlayerId, tick: int)
    : (r: Result<ActionFrame, DecodeError>)
    ensures r.Failure? <==> (steamid, tick) !in rows
    ensures r.Failure? ==> r.error == NotFound(steamid, tick)
  {
    match Lookup(rows, steamid, tick)
    case None => Failure(NotFound(steamid, tick))
    case Some(row) =>
      var wasd := [Bit(row.forward), Bit(row.left), Bit(row.back), Bit(row.right)];
      var jump := Bit(row.oldJumpPressed || row.inDuckJump);
      var crouch := Bit(row.inCrouch || row.ducked || row.ducking);
      Success(ActionFrame(
        wasd := wasd,
        team := row.teamNum,
        walk := Bit(row.walk),
        use := Bit(row.use),
        inspect := Bit(row.inspect),
        dx := row.mouseDx,
        dy := row.mouseDy,
        attack := Bit(row.fire),
        lAttack := Bit(row.rightClick),
        reload := Bit(row.reload),
        select := row.activeWeapon,
        jump := jump,
        crouch := crouch,
        tick := tick))
  }

  /**
    What an action frame means with respect to its raw row: every flag is
    0 or 1 and is 1 exactly when its signal (or one of its signals) is set,
    the mask follows forward/left/back/right, passthrough values are copied
    and the frame carries the requested tick.
   */
  ghost predicate ActionDerived(f: ActionFrame, row: RawRow, tick: int)
  {
    && |f.wasd| == 4
    && (forall i :: 0 <= i < 4 ==> IsBit(f.wasd[i]))
    && (f.wasd[0] == 1 <==> row.forward)
    && (f.wasd[1] == 1 <==> row.left)
    && (f.wasd[2] == 1 <==> row.back)
    && (f.wasd[3] == 1 <==> row.right)
    && IsBit(f.walk) && (f.walk == 1 <==> row.walk)
    && IsBit(f.use) && (f.use == 1 <==> row.use)
    && IsBit(f.inspect) && (f.inspect == 1 <==> row.inspect)
    && IsBit(f.attack) && (f.attack == 1 <==> row.fire)
    && IsBit(f.lAttack) && (f.lAttack == 1 <==> row.rightClick)
    && IsBit(f.reload) && (f.reload == 1 <==> row.reload)
    && IsBit(f.jump) && (f.jump == 1 <==> row.oldJumpPressed || row.inDuckJump)
    && IsBit(f.crouch) && (f.crouch == 1 <==> row.inCrouch || row.ducked || row.ducking)
    && f.team == row.teamNum && f.dx == row.mouseDx && f.dy == row.mouseDy
    && f.select == row.activeWeapon
    && f.tick == tick
  }

  /** The info frame of `steamid` at `tick`. */
  function GetPlayerInfo(rows: map<(PlayerId, int), RawRow>, steamid: PlayerId, tick: int)
    : (r: Result<InfoFrame, DecodeError>)
    ensures r.Failure? <==> (steamid, tick) !in rows
    ensures r.Failure? ==> r.error == NotFound(steamid, tick)
  {
    match Lookup(rows, steamid, tick)
    case None => Failure(NotFound(steamid, tick))
    case Some(row) =>
      var roundTime := row.gameTime - row.roundStartTime;
      Success(InfoFrame(
        tick := tick,
        hp := row.health,
        team := row.teamNum,
        weapon := row.activeWeapon,
        round := row.totalRoundsPlayed,
        time := TruncateTowardZero(roundTime),
        armor := row.armorValue,
        money := row.balance,
        playerName := row.playerName,
        steamid := row.playerSteamid,
        picPath := None))
  }

  /**
    What an info frame means with respect to its raw row: the round time is
    the whole number of seconds since round start, rounded toward zero (so a
    sample slightly before the recorded round start gives 0 or a negative
    value), the rest is copied, no picture is attached yet and the frame
    carries the requested tick.
   */
  ghost predicate InfoDerived(f: InfoFrame, row: RawRow, tick: int)
  {
    var elapsed := row.gameTime - row.roundStartTime;
    && (0.0 <= elapsed ==> f.time as real <= elapsed < f.time as real + 1.0)
    && (elapsed < 0.0 ==> f.time as real - 1.0 < elapsed <= f.time as real)
    && f.hp == row.health && f.team == row.teamNum && f.weapon == row.activeWeapon
    && f.round == row.totalRoundsPlayed && f.armor == row.armorValue
    && f.money == row.balance && f.playerName == row.playerName
    && f.steamid == row.playerSteamid
    && f.picPath == None
    && f.tick == tick
  }

  /**
    A player frame: the info frame is decoded first, then the action frame;
    either failing fails the frame.
   */
  function NewPlayerFrame(rows: map<(PlayerId, int), RawRow>, steamid: PlayerId, tick: int)
    : (r: Result<PlayerFrame, DecodeError>)
    ensures r.Failure? <==> (steamid, tick) !in rows
    ensures r.Failure? ==> r.error == NotFound(steamid, tick)
    ensures r.Success? ==> r.value.tick == r.value.info.tick == r.value.action.tick == tick
  {
    match GetPlayerInfo(rows, steamid, tick)
    case Failure(e) => Failure(e)
    case Success(info) =>
      match GetPlayerAction(rows, steamid, tick)
      case Failure(e) => Failure(e)
      case Success(action) => Success(PlayerFrame(tick, info, action))
  }

  /**
    The action decoder succeeds with `f` exactly when the row exists and
    `f` follows the derivation rules from it: the rules pin the frame down
    completely.
   */
  lemma ActionFrameCharacterised(rows: map<(PlayerId, int), RawRow>, steamid: PlayerId, tick: int, f: ActionFrame)
    ensures GetPlayerAction(rows, steamid, tick) == Success(f) <==>
            (steamid, tick) in rows && ActionDerived(f, rows[(steamid, tick)], tick)
  {
    if (steamid, tick) in rows && ActionDerived(f, rows[(steamid, tick)], tick) {
      var g := GetPlayerAction(rows, steamid, tick).value;
      assert f.wasd == g.wasd by {
        forall i | 0 <= i < 4 ensures f.wasd[i] == g.wasd[i] {
        }
      }
    }
  }

  /**
    Likewise for info frames: in particular the round time is the unique
    integer the truncation rule allows.
   */
  lemma InfoFrameCharacterised(rows: map<(PlayerId, int), RawRow>, steamid: PlayerId, tick: int, f: InfoFrame)
    ensures GetPlayerInfo(rows, steamid, tick) == Success(f) <==>
            (steamid, tick) in rows && InfoDerived(f, rows[(steamid, tick)], tick)
  {
  }

  /** What the action decoder as written can raise. */
  datatype ActionError = Missing(error: DecodeError) | TakesNoArguments

  /**
    The action decoder as written: the frame class declares no initialiser,
    so the keyword-argument call that builds the frame raises a type error
    (the default initialiser accepts no arguments) whenever the row exists.
    `GetPlayerAction` is the decoder the call evidently intends.
   */
  function GetPlayerActionAsWritten(rows: map<(PlayerId, int), RawRow>, steamid: PlayerId, tick: int)
    : (r: Result<ActionFrame, ActionError>)
    ensures r.Failure?
    ensures r.error == Missing(NotFound(steamid, tick)) <==> (steamid, tick) !in rows
  {
    match Lookup(rows, steamid, tick)
    case None => Failure(Missing(NotFound(steamid, tick)))
    case Some(_) => Failure(TakesNoArguments)
  }

  /**
    Wherever the intended decoder produces a frame, the decoder as written
    raises instead, and so does every player frame built on it.
   */
  lemma AsWrittenRejectsEveryRow(rows: map<(PlayerId, int), RawRow>, steamid: PlayerId, tick: int)
    requires GetPlayerAction(rows, steamid, tick).Success?
    ensures GetPlayerActionAsWritten(rows, steamid, tick) == Failure(TakesNoArguments)
  {
  }

  /**
    A player frame built on the action decoder as written: once the info
    frame is decoded, the action decoder raises, so no player frame is ever
    built, and a row that exists always gives the type error.
   */
  function NewPlayerFrameAsWritten(rows: map<(PlayerId, int), RawRow>, steamid: PlayerId, tick: int)
    : (r: Result<PlayerFrame, ActionError>)
    ensures r.Failure?
    ensures (steamid, tick) in rows ==> r.error == TakesNoArguments
    ensures (steamid, tick) !in rows ==> r.error == Missing(NotFound(steamid, tick))
  {
    match GetPlayerInfo(rows, steamid, tick)
    case Failure(e) => Failure(Missing(e))
    case Success(info) =>
      match GetPlayerActionAsWritten(rows, steamid, tick)
      case Failure(e) => Failure(e)
      case Success(action) => Success(PlayerFrame(tick, info, action))
  }

  /** A decoded player frame holds the info and action frames derived from the same row. */
  lemma PlayerFrameDerived(rows: map<(PlayerId, int), RawRow>, steamid: PlayerId, tick: int)
    requires NewPlayerFrame(rows, steamid, tick).Success?
    ensures var pf := NewPlayerFrame(rows, steamid, tick).value;
      && InfoDerived(pf.info, rows[(steamid, tick)], tick)
      && ActionDerived(pf.action, rows[(steamid, tick)], tick)
  {
    var pf := NewPlayerFrame(rows, steamid, tick).value;
    InfoFrameCharacterised(rows, steamid, tick, pf.info);
    ActionFrameCharacterised(rows, steamid, tick, pf.action);
  }
}

=== FILE: telemetry.dfy ===
/**
  The data the pipeline reads from a parsed demo.

  The demo parser itself is a foreign library; here everything it would be
  asked for is handed over up front as one immutable `Demo` value:
  - the per-tick liveliness projection ("is_alive", "player_steamid"),
    one row per (tick, player), in ascending tick order;
  - the ticks of the "round_end" events, in the order the event query
    returns them;
  - the roster (one steam id per player-info row);
  - the per-(player, tick) field projection used by the frame decoders,
    as a partial map: a missing key is an empty query result.
 */
module Telemetry {

  datatype Option<T> = None | Some(value: T)

  datatype Result<T, E> = Success(value: T) | Failure(error: E)

  /** A steam id. */
  type PlayerId = int

  /** One row of the liveliness projection. */
  datatype LivenessRow = LivenessRow(tick: int, steamid: PlayerId, isAlive: bool)

  /**
    One row of the per-player, per-tick projection, holding every raw field
    either frame decoder asks for. Flags the parser reports as booleans are
    `bool`; ids, counters and mouse deltas are passed through as `int`;
    the two clocks are `real`.
   */
  datatype RawRow = RawRow(
    playerSteamid: PlayerId,
    // movement and action buttons
    forward: bool, left: bool, right: bool, back: bool,
    walk: bool, use: bool, inspect: bool,
    fire: bool, rightClick: bool, reload: bool,
    // jump and crouch signals
    oldJumpPressed: bool, inDuckJump: bool,
    inCrouch: bool, ducked: bool, ducking: bool,
    // passthrough values
    teamNum: int, mouseDx: int, mouseDy: int, activeWeapon: int,
    health: int, totalRoundsPlayed: int, armorValue: int, balance: int,
    playerName: string,
    // clocks, in seconds
    roundStartTime: real, gameTime: real)

  datatype Demo = Demo(
    liveness: seq<LivenessRow>,
    roundEnds: seq<int>,
    roster: seq<PlayerId>,
    rows: map<(PlayerId, int), RawRow>)

  /** The single-tick, single-player projection: `None` when the parser has no row. */
  function Lookup(rows: map<(PlayerId, int), RawRow>, steamid: PlayerId, tick: int): Option<RawRow>
  {
    if (steamid, tick) in rows then Some(rows[(steamid, tick)]) else None
  }
}
